=== FILE: README.md ===
# Zentara Stake — a Dafny model of the staking ledger and its surrounding state machines

Zentara Stake is a client-side staking dashboard. All of its data is mock data. This project
models the parts of it that are logic and not rendering:

- the **staking position ledger** of the `useStaking` hook (deposit, claim, withdraw);
- the **reward formula** and address shortening of the utility library;
- the **input gates** in front of the ledger: the two add-stake dialogs and the claim dialog;
- the **mock stores**: the development Firebase service, the mock KYC provider and its
  manager, and the transaction list of the `useCrypto` hook;
- the **gesture and display state machines**: swipe classification, the two pull-to-refresh
  implementations, the theme cycle and the transaction-history panel.

Everything is pure functions over immutable datatypes. Each asynchronous handler is one
atomic transition. Amounts are exact `real`s, so IEEE rounding is idealised away. Clocks,
`Math.random()` draws and generated ids are parameters. `parseFloat` is represented by an
`Option<real>` that travels with the typed text, where `None` stands for `NaN`.

Modules follow the source files:

| module | file |
|---|---|
| `Wrappers` | `Option`/`Result` and `Min`/`Max`/`Abs` helpers |
| `JsString` | JavaScript `slice` semantics and decimal rendering |
| `Seqs` | `Array.prototype.filter` and a stable descending `sort` |
| `OrderedMap` | a JavaScript `Map` with insertion-ordered iteration |
| `Utils` | `lib/utils.ts` |
| `StakingLedger` | `hooks/useStaking.ts` |
| `AddStakeForm` | `components/AddStakeModal.tsx` |
| `QuickStakeForm` | `components/staking/AddStakeModal.tsx` |
| `ClaimRewardsForm` | `components/ClaimRewardsModal.tsx` |
| `MockFirebase` | `lib/firebase.ts` |
| `Kyc` | `lib/kyc.ts` |
| `CryptoWallet` | `hooks/useCrypto.ts` |
| `Swipe` | `hooks/useSwipeGestures.ts` |
| `PullRefreshHook` | `hooks/usePullToRefresh.ts` |
| `PullRefreshView` | `components/PullToRefresh.tsx` |
| `ThemeCycle` | `lib/theme-context.tsx` |
| `TransactionHistory` | `components/TransactionHistory.tsx` |

The hook's `addStake`, `claimRewards` and `removeStake` validate nothing. An unknown id is a
silent no-op, and any amount is applied, including a negative one.
`StakingLedger.NegativeDepositBreaksWellFormed` and `StakingLedger.NegativeWithdrawalDeposits`
show the consequences. The three dialogs carry the checks: the dialog of
`components/AddStakeModal.tsx`, the dialog of `components/staking/AddStakeModal.tsx` and the
claim dialog of `components/ClaimRewardsModal.tsx`. No page of the application renders any of
them; the dashboard only routes "add stake" to the staking page and guards its own claim-all
loop with `pendingRewards > 0`. The model therefore assumes the wiring a parent would provide:
`AddStakeForm.SubmitToLedger`, `QuickStakeForm.SubmitToLedger` and
`ClaimRewardsForm.ClaimToLedger` pass the hook's operation as the dialog's callback. Under that
assumption, `AddStakeForm.GateKeepsLedgerWellFormed` shows that the dialog of
`components/AddStakeModal.tsx` keeps the ledger sound whatever is typed, and
`QuickStakeForm.GateKeepsLedgerWellFormed` shows that every numeric amount the dialog of
`components/staking/AddStakeModal.tsx` lets through is positive and keeps the ledger sound.

The seeded positions carry pending rewards that are not the formula's value. For example,
BTC has 4200 pending, while 3500 at 15.6% over 7 days gives about 10.47. The first deposit,
withdrawal or claim replaces that figure. The model keeps the seed as written.

## Model

| member | source | states |
|---|---|---|
| `Utils.CalculateRewards` | lib/utils.ts:24-26 | the reward is zero when the principal, the APY or the period is zero |
| `Utils.RewardsNonNegative` | lib/utils.ts:25 | non-negative inputs give a non-negative reward |
| `Utils.RewardsAdditive` | lib/utils.ts:25 | the reward is additive in the principal for a fixed APY and period |
| `Utils.RewardsMonotone` | lib/utils.ts:25 | a larger principal never earns less, for a non-negative APY and period |
| `Utils.ShortenAddress` | lib/utils.ts:15-18 | the empty address stays empty; for chars > 0 and a long enough address the result is the first and last chars characters around `...`, of length 2·chars+3; chars = 0 gives `...` followed by the whole address |
| `Utils.ShortenAddressDefault` | lib/utils.ts:15-17 | with the default of 4, an address of at least 8 characters shortens to 11 characters |
| `JsString.SliceHead` | lib/utils.ts:17 | `slice(0, n)` is the first n characters, or the whole string when it is shorter |
| `JsString.SliceTail` | lib/utils.ts:17 | `slice(-n)` is the last n characters, or the whole string when it is shorter |
| `JsString.SliceNegativeZero` | lib/utils.ts:17 | `slice(-0)` is the whole string |
| `JsString.DecimalRoundTrip` | hooks/useCrypto.ts:91 | the decimal rendering of a timestamp reads back as that timestamp |
| `StakingLedger.ProjectedFor` | hooks/useStaking.ts:63 | the hook's inline reward expression equals the library's `calculateRewards` |
| `StakingLedger.Deposit` | hooks/useStaking.ts:61-69 | principal grows by exactly the amount; pending is recomputed from the new principal; earned and the position's terms are unchanged |
| `StakingLedger.Claim` | hooks/useStaking.ts:92-97 | pending becomes zero and earned plus pending is conserved; principal and terms are unchanged |
| `StakingLedger.Withdraw` | hooks/useStaking.ts:120-128 | principal never goes negative, drops by the amount when it covers it and becomes zero otherwise; pending is recomputed |
| `StakingLedger.Apply` | hooks/useStaking.ts:60-72 | the `map` keeps length and order, updates exactly the positions with the given id, and is the identity for an unknown id |
| `StakingLedger.AddStake` | hooks/useStaking.ts:54-83 | the matching position gets principal old+amount and pending `calculateRewards(new principal, apy, lockDays)`; every other position is unchanged; an unknown id changes nothing |
| `StakingLedger.ClaimRewards` | hooks/useStaking.ts:85-111 | the matching position gets earned old+pending and pending 0; every other position is unchanged; an unknown id changes nothing |
| `StakingLedger.RemoveStake` | hooks/useStaking.ts:113-142 | the matching position gets principal max(0, old−amount) and recomputed pending; every other position is unchanged; an unknown id changes nothing |
| `StakingLedger.ApplyKeepsIds` | hooks/useStaking.ts:60-130 | no operation changes any id, so unique ids stay unique |
| `StakingLedger.ClaimIdempotent` | hooks/useStaking.ts:91-99 | a second claim on the same id changes nothing |
| `StakingLedger.ClaimConservesRewardValue` | hooks/useStaking.ts:93-97 | claiming conserves the ledger's total of earned plus pending |
| `StakingLedger.ClaimKeepsWellFormed` | hooks/useStaking.ts:95-96 | claiming keeps every field non-negative and never lowers earned |
| `StakingLedger.RemoveKeepsWellFormed` | hooks/useStaking.ts:121-122 | withdrawing any amount keeps a well-formed ledger well formed |
| `StakingLedger.AddKeepsWellFormed` | hooks/useStaking.ts:62-63 | a non-negative deposit keeps a well-formed ledger well formed |
| `StakingLedger.NegativeDepositBreaksWellFormed` | hooks/useStaking.ts:54-63 | the hook applies a negative deposit, which can make a principal negative |
| `StakingLedger.NegativeWithdrawalDeposits` | hooks/useStaking.ts:121 | a negative withdrawal acts as a deposit of the opposite amount |
| `StakingLedger.DepositThenWithdraw` | hooks/useStaking.ts:60-131 | on positions whose pending equals the formula, depositing and then withdrawing the same amount restores the ledger |
| `StakingLedger.FindAfterAddStake` | hooks/useStaking.ts:60-72 | with unique ids, the position found after a deposit is at the same index and is the deposited record |
| `StakingLedger.Seed` | hooks/useStaking.ts:17-48 | the hook starts from three sound positions, each with a positive lock period |
| `StakingLedger.SeedShape` | hooks/useStaking.ts:17-48 | the seed has three sound positions with distinct ids `altcoin`, `btc`, `meme` |
| `StakingLedger.BtcDepositExample` | hooks/useStaking.ts:29-69 | depositing 500 into the seeded BTC position gives principal 4000 and pending 4000·0.156·7/365, and the other positions are untouched |
| `StakingLedger.BtcClaimExample` | hooks/useStaking.ts:29-97 | claiming the seeded BTC position moves its 4200 pending into earned |
| `AddStakeForm.Submit` | components/AddStakeModal.tsx:31-54 | `onAddStake` is called iff the amount parses to at least 10, with this position's id; NaN or ≤ 0 sets the invalid-amount error; 0 < amount < 10 sets the minimum error; success clears the amount and error and closes; failure sets the failure error |
| `AddStakeForm.Close` | components/AddStakeModal.tsx:56-60 | closing clears amount and error and closes the dialog |
| `AddStakeForm.SubmitDisabled` | components/AddStakeModal.tsx:160 | the button is disabled while loading or for an empty field (its link to `Submit` is `AddStakeForm.CallOnlyFromEnabledButton`) |
| `AddStakeForm.ProjectionShown` | components/AddStakeModal.tsx:124 | the projection panel shows for a non-empty, numeric, positive amount (its partner is `AddStakeForm.ProjectionShownIsNonNegative`) |
| `AddStakeForm.RetryAfterFailure` | components/AddStakeModal.tsx:31-54 | retrying an amount after a failed call ends exactly as a first attempt that succeeds, because each submission clears the error first |
| `AddStakeForm.ProjectedRewards` | components/AddStakeModal.tsx:62 | zero for an empty field; NaN for unparseable text; otherwise `calculateRewards(amount, apy, lockDays)` |
| `AddStakeForm.ProjectionShownIsNonNegative` | components/AddStakeModal.tsx:124 | whenever the projection panel is shown for a sound position, the projection is a non-negative number |
| `AddStakeForm.CallOnlyFromEnabledButton` | components/AddStakeModal.tsx:160 | a submission that reaches `onAddStake` had a non-empty field, so its button was enabled unless loading |
| `AddStakeForm.SubmitToLedger` | components/AddStakeModal.tsx:47-53 | wired to the hook, the ledger changes only for amounts ≥ 10, by `addStake` with that amount |
| `AddStakeForm.GateKeepsLedgerWellFormed` | components/AddStakeModal.tsx:37-48 | whatever is typed, the gated ledger stays well formed |
| `QuickStakeForm.Submit` | components/staking/AddStakeModal.tsx:30-43 | an empty or non-positive amount changes nothing; otherwise `onAddStake(id, amount)` is called, the form is loading during the call, loading is false afterwards, and the amount is cleared only on success |
| `QuickStakeForm.Rejected` | components/staking/AddStakeModal.tsx:32 | the early return takes an empty field or a numeric amount ≤ 0; NaN is not rejected |
| `QuickStakeForm.SubmitDisabled` | components/staking/AddStakeModal.tsx:148 | the button is disabled while loading, for an empty field, or for a numeric amount ≤ 0 (its partner is `QuickStakeForm.ButtonMatchesGuard`) |
| `QuickStakeForm.AnyPositiveAmountForwarded` | components/staking/AddStakeModal.tsx:32-36 | every positive amount is forwarded; there is no minimum |
| `QuickStakeForm.DialogsDisagreeBelowMinimum` | components/staking/AddStakeModal.tsx:32-36 | an amount of 5 is refused by the dialog of components/AddStakeModal.tsx and forwarded by this one |
| `QuickStakeForm.EstimatedRewards` | components/staking/AddStakeModal.tsx:45 | the estimate is `calculateRewards(amount, apy, lockDays)`, NaN for unparseable text |
| `QuickStakeForm.ButtonMatchesGuard` | components/staking/AddStakeModal.tsx:148 | when not loading, the button is enabled exactly when a submission would reach `onAddStake` |
| `QuickStakeForm.UnparsedTextIsForwarded` | components/staking/AddStakeModal.tsx:32 | non-empty text that does not parse passes the guard and is forwarded as NaN |
| `QuickStakeForm.SubmitToLedger` | components/staking/AddStakeModal.tsx:32-37 | wired to the hook, a rejected amount leaves the ledger unchanged and a numeric one is deposited |
| `QuickStakeForm.GateKeepsLedgerWellFormed` | components/staking/AddStakeModal.tsx:32-36 | every numeric amount let through is positive, so the ledger stays well formed |
| `ClaimRewardsForm.HandleClaim` | components/ClaimRewardsModal.tsx:30-44 | `onClaimRewards(position.id)` is called iff pending > 0; otherwise the no-rewards error is set; success clears the error and closes; failure sets the failure error |
| `ClaimRewardsForm.Close` | components/ClaimRewardsModal.tsx:46-49 | closing clears the error and closes the dialog |
| `ClaimRewardsForm.ClaimDisabled` | components/ClaimRewardsModal.tsx:156 | the claim button is disabled while loading or when nothing is pending (its partner is `ClaimRewardsForm.ButtonMatchesGuard`) |
| `ClaimRewardsForm.NetRewards` | components/ClaimRewardsModal.tsx:51-52 | net rewards lie in [0, max(0, pending)], equal pending − 2.50 when pending covers the fee, and are zero otherwise |
| `ClaimRewardsForm.ButtonMatchesGuard` | components/ClaimRewardsModal.tsx:156 | when not loading, the claim button is enabled exactly when a claim would call through |
| `ClaimRewardsForm.ClaimToLedger` | components/ClaimRewardsModal.tsx:38-40 | wired to the hook, nothing pending leaves the ledger unchanged; otherwise the ledger is claimed and the dialog closes |
| `ClaimRewardsForm.GatedClaimRaisesEarned` | components/ClaimRewardsModal.tsx:33-40 | a claim the dialog lets through strictly raises that position's earned and zeroes its pending |
| `OrderedMap.Set` | lib/firebase.ts:47-49 | after `set`, `get` of that key returns the value and every other key is unchanged; an existing key keeps its place and every other entry stays as it was; a new key is appended |
| `Seqs.Filter` | lib/firebase.ts:92 | every kept element appears in the result exactly as often as in the input, and no other element appears |
| `Seqs.FilterAppend` | lib/firebase.ts:92 | filtering keeps the input order: the filter of a concatenation is the concatenation of the filters |
| `Seqs.SortDesc` | lib/firebase.ts:118 | the result is a permutation of the input ordered by key, largest first |
| `MockFirebase.MergeUser` | lib/firebase.ts:73 | the merge stamps `updatedAt`; every field the patch gives a value is taken from the patch, and every field it leaves out is kept |
| `MockFirebase.MergePosition` | lib/firebase.ts:98 | the merge stamps `updatedAt`; every field the patch gives a value is taken from the patch, and every field it leaves out is kept |
| `MockFirebase.MergeUserTwice` | lib/firebase.ts:70-75 | two successive user updates equal one update with the later patch laid over the earlier |
| `MockFirebase.MergePositionTwice` | lib/firebase.ts:95-100 | two successive position updates equal one update with the later patch laid over the earlier |
| `MockFirebase.CreateUser` | lib/firebase.ts:52-64 | the new user has the given email and KYC `not_started`, is retrievable by its uid, and no other user, position or log changes |
| `MockFirebase.GetUser` | lib/firebase.ts:66-68 | an unknown uid gives null |
| `MockFirebase.UpdateUser` | lib/firebase.ts:70-75 | an unknown uid is a no-op; a known one is replaced by the merge; no other user changes |
| `MockFirebase.CreateStakingPosition` | lib/firebase.ts:78-89 | the new position carries the draft's fields under the given id; other positions are unchanged; a fresh id appends one entry |
| `MockFirebase.GetStakingPositions` | lib/firebase.ts:91-93 | each of the user's stored positions appears as often as in the store and no other position appears |
| `MockFirebase.UpdateStakingPosition` | lib/firebase.ts:95-100 | an unknown id is a no-op; a known one is replaced by the merge; no other position changes |
| `MockFirebase.CreateTransactionLog` | lib/firebase.ts:103-113 | the new log carries the draft's fields under the given id; other logs are unchanged; a fresh id appends one entry |
| `MockFirebase.GetTransactionLogs` | lib/firebase.ts:115-119 | each of the user's stored logs appears as often as in the store and no other log appears, ordered by creation time, newest first |
| `MockFirebase.SeedMockData` | lib/firebase.ts:122-190 | the demo user `mock-user-1` is stored, with KYC approved and created a week before `now` |
| `MockFirebase.MockUser` | lib/firebase.ts:124-131 | the demo user is `mock-user-1`, KYC approved, created 604800000 ms (a week) before `now` and updated at `now` |
| `MockFirebase.MockPositionDrafts` | lib/firebase.ts:135-162 | three position drafts, all owned by the demo user, with positive amount and APY |
| `MockFirebase.MockLogDrafts` | lib/firebase.ts:170-185 | two completed log drafts, both of the demo user |
| `MockFirebase.SeedShape` | lib/firebase.ts:122-190 | seeding an empty store with distinct ids gives one user, three positions and two logs, all three positions and both logs belonging to the demo user |
| `MockFirebase.SeedPositions` | lib/firebase.ts:135-167 | seeding gives three positions, all owned by the demo user |
| `MockFirebase.SeedLogs` | lib/firebase.ts:170-189 | seeding gives two logs, both the demo user's |
| `MockFirebase.Reset` | lib/firebase.ts:193-197 | after reset no user, position or log can be found |
| `Kyc.InitialStatus` | lib/kyc.ts:14-15 | the draw picks pending, approved or rejected by thirds |
| `Kyc.Start` | lib/kyc.ts:10-27 | the session is recorded for the user at `now` with the status the draw selects; other sessions are unchanged |
| `Kyc.FiveMinutesInMilliseconds` | lib/kyc.ts:38-42 | more than five minutes since creation means more than 300000 ms |
| `Kyc.GetStatus` | lib/kyc.ts:29-50 | an unknown session fails with "Session not found"; approved and rejected sessions are reported unchanged; a pending session is decided only after more than five minutes, and then becomes rejected when the draw exceeds 0.7 and approved otherwise; the stored session keeps its user and creation time |
| `Kyc.DecidedIsFinal` | lib/kyc.ts:36-49 | once a session is decided, later queries report the same status and change nothing |
| `Kyc.YoungSessionStaysPending` | lib/kyc.ts:37-47 | a pending session at most five minutes old stays pending |
| `Kyc.ResetSessions` | lib/kyc.ts:65-67 | after a reset every session is unknown |
| `Kyc.CreateKycProvider` | lib/kyc.ts:71-87 | only `mock` succeeds, with no sessions; every other type fails with its message |
| `Kyc.FreshProviderKnowsNoSession` | lib/kyc.ts:29-34 | every status query on a newly created mock provider fails with "Session not found" |
| `Kyc.StartKyc` | lib/kyc.ts:98-102 | the user maps to the newest session, replacing any earlier one; other users keep theirs |
| `Kyc.GetKycStatus` | lib/kyc.ts:104-117 | `not_started` exactly for a user without a session; a provider error is reported as pending; for a live session the provider's own answer is reported and its updated state kept |
| `Kyc.IsKycApproved` | lib/kyc.ts:119-122 | true exactly when the reported status is approved |
| `Kyc.StartedUserReportsProviderStatus` | lib/kyc.ts:98-117 | after starting, the manager reports the provider's own status for the user's session |
| `Kyc.ApprovedDrawIsImmediate` | lib/kyc.ts:98-122 | a session drawn approved makes the user approved at once |
| `CryptoWallet.GasUsed` | hooks/useCrypto.ts:100 | gas used lies in [21000, 70999] |
| `CryptoWallet.GasPrice` | hooks/useCrypto.ts:101 | gas price lies in [10, 29] |
| `CryptoWallet.TxId` | hooks/useCrypto.ts:91 | the id is `tx_` followed by digits that read back as the timestamp |
| `CryptoWallet.ExplorerBase` | hooks/useCrypto.ts:155-160 | exactly the four networks ethereum, polygon, bsc and ton have a base URL, each ending in `/tx/` |
| `CryptoWallet.TxIdsDistinct` | hooks/useCrypto.ts:91 | transactions sent at different milliseconds get different ids |
| `CryptoWallet.SendTransaction` | hooks/useCrypto.ts:80-124 | "Wallet not connected" exactly when not connected or no address; otherwise one pending `send` of the given token, from the address to the recipient and stamped `now`, is prepended and the rest of the list is unchanged |
| `CryptoWallet.Confirm` | hooks/useCrypto.ts:107-115 | only transactions with the matching id become confirmed; all others are unchanged |
| `CryptoWallet.ConfirmIdempotent` | hooks/useCrypto.ts:107-115 | confirming twice is confirming once |
| `CryptoWallet.ConfirmedOnly` | hooks/useCrypto.ts:134 | every confirmed transaction appears as often as in the list, and nothing else appears |
| `CryptoWallet.ConfirmedOnlyAppend` | hooks/useCrypto.ts:134 | the export keeps the list order: the confirmed part of a concatenation is the concatenation of the confirmed parts |
| `CryptoWallet.ExportWallet` | hooks/useCrypto.ts:127-137 | fails when not connected; otherwise exports the address and only the confirmed transactions |
| `CryptoWallet.SentTransactionExportedOnceConfirmed` | hooks/useCrypto.ts:104-134 | a sent transaction is left out of the export until confirmed, and is then the first exported transaction |
| `CryptoWallet.ExplorerUrl` | hooks/useCrypto.ts:154-164 | the URL is the network's base followed by the hash; unknown networks use etherscan |
| `CryptoWallet.ExplorerUrlDeterminesHash` | hooks/useCrypto.ts:162-163 | for a fixed network, distinct hashes give distinct explorer URLs, so the hash can be read back |
| `CryptoWallet.GetTransactionHistory` | hooks/useCrypto.ts:167-177 | empty when not connected, otherwise the whole list |
| `CryptoWallet.HistoryShowsSentTransaction` | hooks/useCrypto.ts:80-177 | on a ready wallet, the history after a send starts with the new pending transaction, followed by the earlier history |
| `Swipe.Classify` | hooks/useSwipeGestures.ts:46-73 | too slow or too short fires nothing; a horizontal callback needs abs(dx) > abs(dy) and abs(dy) < threshold, right iff dx > 0; a vertical one needs abs(dx) ≤ abs(dy) and abs(dx) < threshold, down iff dy > 0 |
| `Swipe.TouchEnd` | hooks/useSwipeGestures.ts:37-76 | nothing fires without a recorded start; the start is kept exactly on the early rejections and cleared after the direction branch; a settled gesture fires exactly the callback of the direction `Classify` settles on |
| `Swipe.MirrorSwapsLeftAndRight` | hooks/useSwipeGestures.ts:55-73 | mirroring dx swaps left and right and changes nothing else |
| `Swipe.DiagonalNeverFires` | hooks/useSwipeGestures.ts:55-64 | an exact diagonal never fires when the minimum distance is at least the threshold |
| `Swipe.DefaultExamples` | hooks/useSwipeGestures.ts:21-73 | with the defaults, a quick 100 px right swipe fires right, and slow, short or drifting swipes do not |
| `PullRefreshHook.Resisted` | hooks/usePullToRefresh.ts:50 | the damped pull never exceeds 1.5·threshold and is positive for positive resistance and threshold; it is `deltaY / resistance` below the cap, and the cap itself when the damped value reaches it or the resistance is zero |
| `PullRefreshHook.TouchStart` | hooks/usePullToRefresh.ts:27-40 | ignored when disabled or refreshing; otherwise records the start and sets canPull iff scrollTop = 0 |
| `PullRefreshHook.TouchMove` | hooks/usePullToRefresh.ts:42-58 | ignored unless enabled, idle, allowed and started; only a downward pull changes the distance, and such a pull always sets it to the damped pull |
| `PullRefreshHook.TouchEnd` | hooks/usePullToRefresh.ts:60-77 | refreshes iff the pull reached the threshold; afterwards not refreshing, distance 0, start cleared, canPull false |
| `PullRefreshHook.ShouldShowIndicator` | hooks/usePullToRefresh.ts:98 | the indicator shows for a pull beyond 20 or while refreshing (its partner is `PullRefreshHook.IndicatorFollowsPull`) |
| `PullRefreshHook.RunStaysSettled` | hooks/usePullToRefresh.ts:27-77 | after any sequence of touch events the pull distance stays in [0, 1.5·threshold] and no refresh is left running |
| `PullRefreshHook.IndicatorFollowsPull` | hooks/usePullToRefresh.ts:98 | between events the indicator shows exactly when the pull exceeds 20 |
| `PullRefreshHook.DefaultPullRefreshes` | hooks/usePullToRefresh.ts:15-63 | with the defaults, a 250 px pull is damped to 100 and releasing it refreshes |
| `PullRefreshView.TouchStart` | components/PullToRefresh.tsx:23-30 | the start is recorded only when enabled, on mobile, and scrolled to the top |
| `PullRefreshView.TouchMove` | components/PullToRefresh.tsx:32-47 | ignored without a start; the distance changes only to a diff in (0, 120], and such a diff, while active and started, always becomes the distance |
| `PullRefreshView.TouchEnd` | components/PullToRefresh.tsx:49-67 | a zero pull does nothing; otherwise refresh runs iff the pull is at least 80, and the pull and start reset to 0 |
| `PullRefreshView.RefreshOpacity` | components/PullToRefresh.tsx:69 | opacity lies in [0, 1] and is 1 exactly from the threshold on |
| `PullRefreshView.RefreshScale` | components/PullToRefresh.tsx:70 | scale lies in [0.5, 1] |
| `PullRefreshView.ScaleTracksOpacity` | components/PullToRefresh.tsx:69-70 | scale is always 0.5 + 0.5·opacity |
| `PullRefreshView.RunStaysBounded` | components/PullToRefresh.tsx:21-66 | after any sequence of touch events the pull distance stays in [0, 120] |
| `ThemeCycle.Toggle` | lib/theme-context.tsx:36-40 | default→dark→light→default, never staying put |
| `ThemeCycle.ToggleCycle` | lib/theme-context.tsx:38 | three toggles return to the start and two do not |
| `ThemeCycle.Name` | lib/theme-context.tsx:5 | every theme is stored as one of the three valid names |
| `ThemeCycle.Parse` | lib/theme-context.tsx:22 | a stored name is accepted iff it is `light`, `dark` or `default` |
| `ThemeCycle.NameParseRoundTrip` | lib/theme-context.tsx:22-33 | storing a theme's name and reading it back gives the theme, and only its own name does |
| `ThemeCycle.Mount` | lib/theme-context.tsx:15-25 | a valid saved theme is adopted; anything else leaves `default` |
| `ThemeCycle.PersistedThemeSurvivesReload` | lib/theme-context.tsx:18-33 | the theme persisted by one session is the theme the next session mounts with |
| `TransactionHistory.Displayed` | components/TransactionHistory.tsx:11 | the displayed list is a prefix of the transactions: all of them when expanded, otherwise min(5, n) |
| `TransactionHistory.Render` | components/TransactionHistory.tsx:51-133 | an empty list gives the empty state; otherwise the displayed rows, with the toggle present iff there are more than 5 |
| `TransactionHistory.ToggleLabel` | components/TransactionHistory.tsx:131 | expanded, the label is "Show Less"; collapsed, it is "Show All (" and digits reading back as the transaction count, then ")" |
| `TransactionHistory.ShortListShownInFull` | components/TransactionHistory.tsx:11-126 | with at most five transactions everything is listed and there is no toggle |
| `TransactionHistory.CollapsedHidesTail` | components/TransactionHistory.tsx:11 | collapsing hides exactly the transactions after the fifth |
| `TransactionHistory.FormatAddress` | components/TransactionHistory.tsx:47-49 | an address of at least 10 characters becomes its first 6 and last 4 around `...` (13 characters); the empty address becomes `...` |

## Left out

- The `isLoading` flag of `useStaking`, the simulated delays and overlapping in-flight operations. Each handler is one atomic step, so no two operations interleave.
- IEEE-754 arithmetic, `toFixed`, `toLocaleString`, `formatCurrency`, `formatAPY` and `cn`. Amounts are exact reals, and formatting is display only.
- `parseFloat` itself. Its result is an input, constrained only so that the empty text is not a number.
- Price jitter, random hash generation, the Blob download, `window.open` and the export timestamp in `useCrypto`. These are I/O and randomness. The hash digits are a parameter, and the URL is computed but not opened.
- `clearError` in `useCrypto`. It only resets a display field.
- Haptic feedback, `preventDefault`, the container's `translateY` and the indicator's rotation and colour in the pull-to-refresh components. These are device calls and display geometry.
- `getAllSessions` and `getProviderName` of the KYC provider and manager. They are a test helper and a constant string.
- `useTheme`'s context error and applying the theme class to the document. These are React and DOM plumbing.
- `Seqs.SortDesc`: stability (ties keep insertion order) holds by construction but is not stated as a contract.
- `MockFirebase.GetStakingPositions`: states which positions are returned, not that they come in insertion order.
- `CryptoWallet.ExplorerUrl`: a network name that is an inherited object property (such as `toString`) would pick up a non-string in the source. The model treats every name outside the four networks as unknown.
- `PullRefreshHook.TouchEnd`: the React closure may read a stale `pullDistance`. The model reads the current state.
- `QuickStakeForm.SubmitToLedger`: a non-empty text that does not parse passes the dialog's guard and is forwarded as NaN, and the model stops there (`None`) instead of following NaN into the ledger. The field is a number input (components/staking/AddStakeModal.tsx:110), which reports an empty value for text that is not a number, so this case does not arise in a browser. `QuickStakeForm.GateKeepsLedgerWellFormed` therefore covers numeric amounts only.
- The parent components that would connect the dialogs to the ledger hook. No page of the application renders the dialogs, so `AddStakeForm.SubmitToLedger`, `QuickStakeForm.SubmitToLedger` and `ClaimRewardsForm.ClaimToLedger` assume that wiring. The dashboard's claim-all loop belongs to the dashboard page, which is not part of this model.
- `CryptoWallet.SendTransaction`: the source reads `Date.now()` twice, once for the id and once for the timestamp. The model uses one `now` for both, so it does not cover a clock tick between the two reads.
- `MockFirebase.MergeUser`: a patch property present with the value `undefined` is copied by the source's object spread and clears the field. The model's patch has only "given" and "left out", so it does not express this.
- `MockFirebase.MergePosition`: likewise, a patch property set to `undefined` clears the field in the source and is not expressible in the model.
- `MockFirebase.CreateUser`, `MockFirebase.CreateStakingPosition`, `MockFirebase.CreateTransactionLog` and `MockFirebase.SeedMockData`: the source reads the clock separately for the id, `createdAt`, `updatedAt` and each seeded record. The model uses one `now` per call, so `createdAt` equals `updatedAt` and the two seeded logs tie on `createdAt`. A clock tick between reads is not covered.

=== FILE: add_stake_form.dfy ===
/** The add-stake dialog of `components/AddStakeModal.tsx`: an input gate meant for the
    ledger's `addStake`. `SubmitToLedger` assumes a parent that passes the hook's `addStake`
    as `onAddStake`; no page of the application renders the dialog. The typed amount is kept as text; `parsed` stands
    for `parseFloat` of that text, with `None` for `NaN`. The parent's `onClose` is modelled
    as clearing the `open` flag, and whether the awaited `onAddStake` throws is a parameter. */
module AddStakeForm {
  import opened Wrappers
  import Utils
  import StakingLedger

  const InvalidAmountError := "Please enter a valid amount"
  const MinimumStakeError := "Minimum stake amount is $10"
  const SubmitFailedError := "Failed to add stake. Please try again."
  const MinimumStake: real := 10.0

  datatype Form = Form(amount: string, error: string, open: bool)

  /** The arguments of one `onAddStake(positionId, amount)` call. */
  datatype StakeCall = StakeCall(positionId: string, amount: real)

  datatype Submission = Submission(form: Form, call: Option<StakeCall>)

  /** What `parseFloat` is known to do: the empty text is not a number. */
  predicate ParsedFrom(text: string, parsed: Option<real>)
  {
    text == "" ==> parsed.None?
  }

  /** `handleSubmit`: clear the error, reject a missing or non-positive amount, reject an
      amount below the minimum, otherwise call `onAddStake`, then reset and close on
      success or report the failure. */
  function Submit(f: Form, position: StakingLedger.Position, parsed: Option<real>, callSucceeds: bool): (r: Submission)
    ensures r.call.Some? <==> parsed.Some? && parsed.value >= MinimumStake
    ensures r.call.Some? ==> r.call.value == StakeCall(position.id, parsed.value)
    ensures (parsed.None? || parsed.value <= 0.0) ==> r.form == f.(error := InvalidAmountError)
    ensures parsed.Some? && 0.0 < parsed.value < MinimumStake ==> r.form == f.(error := MinimumStakeError)
    ensures r.call.Some? && callSucceeds ==> r.form == Form("", "", false)
    ensures r.call.Some? && !callSucceeds ==> r.form == f.(error := SubmitFailedError)
    ensures r.form.error == "" <==> r.call.Some? && callSucceeds
  {
    var cleared := f.(error := "");
    match parsed
    case None => Submission(cleared.(error := InvalidAmountError), None)
    case Some(v) =>
      if v <= 0.0 then Submission(cleared.(error := InvalidAmountError), None)
      else if v < MinimumStake then Submission(cleared.(error := MinimumStakeError), None)
      else if callSucceeds then Submission(cleared.(amount := "", open := false), Some(StakeCall(position.id, v)))
      else Submission(cleared.(error := SubmitFailedError), Some(StakeCall(position.id, v)))
  }

  /** `handleClose`: amount and error are cleared and the dialog closes. */
  function Close(f: Form): (r: Form)
    ensures r.amount == "" && r.error == "" && !r.open
  {
    f.(amount := "", error := "", open := false)
  }

  /** A failed submission leaves nothing behind that a retry depends on: retrying the same
      amount after a failure ends exactly as a first attempt that succeeds. */
  lemma RetryAfterFailure(f: Form, position: StakingLedger.Position, parsed: Option<real>)
    ensures Submit(Submit(f, position, parsed, false).form, position, parsed, true) == Submit(f, position, parsed, true)
  {
  }

  /** `projectedRewards`: zero for an empty field, otherwise the reward formula applied to
      the typed amount (`None` when the text is not a number, where the source gets NaN). */
  function ProjectedRewards(amount: string, parsed: Option<real>, position: StakingLedger.Position): (r: Option<real>)
    ensures amount == "" ==> r == Some(0.0)
    ensures amount != "" ==> r.Some? == parsed.Some?
    ensures amount != "" && parsed.Some? ==>
              r.value == Utils.CalculateRewards(parsed.value, position.apy, position.lockDays as real)
  {
    if amount == "" then Some(0.0)
    else match parsed
      case None => None
      case Some(v) => Some(v * (position.apy / 100.0) * (position.lockDays as real / 365.0))
  }

  /** The projection panel is shown for a non-empty, numeric, positive amount. */
  predicate ProjectionShown(amount: string, parsed: Option<real>)
  {
    amount != "" && parsed.Some? && parsed.value > 0.0
  }

  /** Whenever the panel is shown, the projection it displays is a number and not negative. */
  lemma ProjectionShownIsNonNegative(amount: string, parsed: Option<real>, position: StakingLedger.Position)
    requires ProjectionShown(amount, parsed) && StakingLedger.Sound(position)
    ensures ProjectedRewards(amount, parsed, position).Some?
    ensures ProjectedRewards(amount, parsed, position).value >= 0.0
  {
    Utils.RewardsNonNegative(parsed.value, position.apy, position.lockDays as real);
  }

  /** The submit button: disabled while loading or while the field is empty. */
  predicate SubmitDisabled(isLoading: bool, amount: string)
  {
    isLoading || amount == ""
  }

  /** Only an enabled button can lead to a call: an empty field never parses. */
  lemma CallOnlyFromEnabledButton(f: Form, position: StakingLedger.Position, parsed: Option<real>, callSucceeds: bool)
    requires ParsedFrom(f.amount, parsed)
    ensures Submit(f, position, parsed, callSucceeds).call.Some? ==> !SubmitDisabled(false, f.amount)
  {
  }

  /** The dialog wired to the ledger: the hook's `addStake` runs exactly when the form calls
      it, with the form's amount, and the hook itself never throws. */
  function SubmitToLedger(ledger: seq<StakingLedger.Position>, f: Form, position: StakingLedger.Position, parsed: Option<real>)
    : (r: (Form, seq<StakingLedger.Position>))
    ensures parsed.None? || parsed.value < MinimumStake ==> r.1 == ledger
    ensures parsed.Some? && parsed.value >= MinimumStake ==>
              r.1 == StakingLedger.AddStake(ledger, position.id, parsed.value) && r.0 == Form("", "", false)
  {
    var s := Submit(f, position, parsed, true);
    match s.call
    case None => (s.form, ledger)
    case Some(c) => (s.form, StakingLedger.AddStake(ledger, c.positionId, c.amount))
  }

  /** The gate protects the ledger invariant the hook does not protect itself: whatever the
      user types, a well-formed ledger stays well formed. */
  lemma GateKeepsLedgerWellFormed(ledger: seq<StakingLedger.Position>, f: Form, position: StakingLedger.Position, parsed: Option<real>)
    requires StakingLedger.WellFormed(ledger)
    ensures StakingLedger.WellFormed(SubmitToLedger(ledger, f, position, parsed).1)
  {
    if parsed.Some? && parsed.value >= MinimumStake {
      StakingLedger.AddKeepsWellFormed(ledger, position.id, parsed.value);
    }
  }
}

=== FILE: claim_rewards_form.dfy ===
/** The claim-rewards dialog (`components/ClaimRewardsModal.tsx`): a gate meant for the
    ledger's `claimRewards`, and the net-of-gas display figure. `ClaimToLedger` assumes a
    parent that passes the hook's `claimRewards` as `onClaimRewards`; no page of the
    application renders the dialog. */
module ClaimRewardsForm {
  import opened Wrappers
  import StakingLedger

  const NoRewardsError := "No rewards available to claim"
  const ClaimFailedError := "Failed to claim rewards. Please try again."
  /** The mock gas fee the dialog subtracts for display. */
  const EstimatedGasFee: real := 2.5

  datatype Form = Form(error: string, open: bool)

  /** `call` holds the position id passed to `onClaimRewards`, if it was called. */
  datatype ClaimAttempt = ClaimAttempt(form: Form, call: Option<string>)

  /** `handleClaim`: clear the error; with nothing pending report it and stop; otherwise
      call `onClaimRewards`, closing on success and reporting a failure. */
  function HandleClaim(f: Form, position: StakingLedger.Position, callSucceeds: bool): (r: ClaimAttempt)
    ensures r.call.Some? <==> position.pendingRewards > 0.0
    ensures r.call.Some? ==> r.call.value == position.id
    ensures position.pendingRewards <= 0.0 ==> r.form == Form(NoRewardsError, f.open)
    ensures r.call.Some? && callSucceeds ==> r.form == Form("", false)
    ensures r.call.Some? && !callSucceeds ==> r.form == Form(ClaimFailedError, f.open)
  {
    var cleared := f.(error := "");
    if position.pendingRewards <= 0.0 then ClaimAttempt(cleared.(error := NoRewardsError), None)
    else if callSucceeds then ClaimAttempt(cleared.(open := false), Some(position.id))
    else ClaimAttempt(cleared.(error := ClaimFailedError), Some(position.id))
  }

  /** `handleClose`: the error is cleared and the dialog closes. */
  function Close(f: Form): (r: Form)
    ensures r.error == "" && !r.open
  {
    Form("", false)
  }

  /** `netRewards`: pending rewards less the gas fee, floored at zero. */
  function NetRewards(pendingRewards: real): (r: real)
    ensures 0.0 <= r <= Max(0.0, pendingRewards)
    ensures pendingRewards >= EstimatedGasFee ==> r + EstimatedGasFee == pendingRewards
    ensures pendingRewards <= EstimatedGasFee ==> r == 0.0
  {
    Max(0.0, pendingRewards - EstimatedGasFee)
  }

  /** The claim button: disabled while loading or when nothing is pending. */
  predicate ClaimDisabled(isLoading: bool, position: StakingLedger.Position)
  {
    isLoading || position.pendingRewards <= 0.0
  }

  /** Outside loading, the button is enabled exactly when the handler would call through. */
  lemma ButtonMatchesGuard(f: Form, position: StakingLedger.Position, callSucceeds: bool)
    ensures !ClaimDisabled(false, position) <==> HandleClaim(f, position, callSucceeds).call.Some?
  {
  }

  /** The dialog wired to the ledger's `claimRewards`, which never throws. */
  function ClaimToLedger(ledger: seq<StakingLedger.Position>, f: Form, position: StakingLedger.Position)
    : (r: (Form, seq<StakingLedger.Position>))
    ensures position.pendingRewards <= 0.0 ==> r == (Form(NoRewardsError, f.open), ledger)
    ensures position.pendingRewards > 0.0 ==>
              r == (Form("", false), StakingLedger.ClaimRewards(ledger, position.id))
  {
    var a := HandleClaim(f, position, true);
    match a.call
    case None => (a.form, ledger)
    case Some(id) => (a.form, StakingLedger.ClaimRewards(ledger, id))
  }

  /** When the dialog shows the current state of a ledger position, a claim it lets through
      strictly raises that position's `earned` and empties its pending rewards. */
  lemma GatedClaimRaisesEarned(ledger: seq<StakingLedger.Position>, f: Form, i: nat)
    requires i < |ledger|
    requires ledger[i].pendingRewards > 0.0
    ensures var after := ClaimToLedger(ledger, f, ledger[i]).1;
            after[i].earned > ledger[i].earned && after[i].pendingRewards == 0.0
  {
  }
}

=== FILE: crypto_wallet.dfy ===
/** The transaction list of the `useCrypto` hook: sending prepends a pending transaction,
    a later timer confirms it by id, exporting keeps only confirmed ones, and the explorer
    link is chosen by network. Price simulation, file download and opening windows are not
    part of the model. The random hash digits and the two random gas draws are parameters;
    the clock is a millisecond parameter. */
module CryptoWallet {
  import opened Wrappers
  import JsString
  import Seqs

  datatype TxType = Send | Receive | Stake | Unstake | Claim
  datatype TxStatus = Pending | Confirmed | Failed

  datatype Transaction = Transaction(
    id: string,
    hash: string,
    kind: TxType,
    amount: real,
    token: string,
    status: TxStatus,
    timestamp: int,
    to: Option<string>,
    from: Option<string>,
    gasUsed: Option<int>,
    gasPrice: Option<int>)

  /** The wallet connection as the hook sees it; an empty address is JavaScript-false. */
  datatype Wallet = Wallet(isConnected: bool, address: string)

  datatype Hook = Hook(transactions: seq<Transaction>, isLoading: bool, error: Option<string>)

  const WalletNotConnected := "Wallet not connected"

  predicate Ready(w: Wallet)
  {
    w.isConnected && w.address != ""
  }

  /** `Math.floor(Math.random() * 50000) + 21000`. */
  function GasUsed(roll: real): (g: int)
    requires 0.0 <= roll < 1.0
    ensures 21000 <= g <= 70999
  {
    (roll * 50000.0).Floor + 21000
  }

  /** `Math.floor(Math.random() * 20) + 10`. */
  function GasPrice(roll: real): (g: int)
    requires 0.0 <= roll < 1.0
    ensures 10 <= g <= 29
  {
    (roll * 20.0).Floor + 10
  }

  /** The id `tx_<now>` the hook gives a sent transaction. */
  function TxId(now: nat): (r: string)
    ensures |r| > 3 && r[..3] == "tx_"
    ensures JsString.IsDigits(r[3..]) && JsString.DigitsValue(r[3..]) == now
  {
    JsString.DecimalRoundTrip(now);
    var r := "tx_" + JsString.Decimal(now);
    assert r[3..] == JsString.Decimal(now);
    r
  }

  /** Transactions sent at different milliseconds get different ids. */
  lemma TxIdsDistinct(a: nat, b: nat)
    requires a != b
    ensures TxId(a) != TxId(b)
  {
    JsString.DecimalInjective(a, b);
    assert TxId(a)[3..] == JsString.Decimal(a);
    assert TxId(b)[3..] == JsString.Decimal(b);
  }

  /** `sendTransaction(to, amount, token)`: fails when the wallet is not ready, leaving the
      hook as it was; otherwise prepends one pending `send` from the wallet's address and
      returns its hash. */
  function SendTransaction(h: Hook, w: Wallet, to: string, amount: real, token: string, now: nat,
                           hashDigits: string, gasRoll: real, priceRoll: real): (r: Result<(Hook, string), string>)
    requires 0.0 <= gasRoll < 1.0 && 0.0 <= priceRoll < 1.0
    ensures !Ready(w) <==> r == Failure(WalletNotConnected)
    ensures r.Success? ==>
              var h' := r.value.0;
              && |h'.transactions| == |h.transactions| + 1
              && h'.transactions[1..] == h.transactions
              && h'.transactions[0].kind == Send
              && h'.transactions[0].status == Pending
              && h'.transactions[0].from == Some(w.address)
              && h'.transactions[0].to == Some(to)
              && h'.transactions[0].amount == amount
              && h'.transactions[0].token == token
              && h'.transactions[0].timestamp == now
              && h'.transactions[0].id == TxId(now)
              && h'.transactions[0].hash == r.value.1
              && h'.transactions[0].gasUsed.Some? && 21000 <= h'.transactions[0].gasUsed.value <= 70999
              && h'.transactions[0].gasPrice.Some? && 10 <= h'.transactions[0].gasPrice.value <= 29
              && !h'.isLoading && h'.error.None?
  {
    if !Ready(w) then Failure(WalletNotConnected)
    else
      var tx := Transaction(TxId(now), "0x" + hashDigits, Send, amount, token, Pending, now,
                            Some(to), Some(w.address), Some(GasUsed(gasRoll)), Some(GasPrice(priceRoll)));
      Success((Hook([tx] + h.transactions, false, None), tx.hash))
  }

  /** The confirmation timer: marks every transaction with the given id confirmed. */
  function Confirm(txs: seq<Transaction>, id: string): (r: seq<Transaction>)
    ensures |r| == |txs|
    ensures forall i :: 0 <= i < |txs| && txs[i].id == id ==> r[i] == txs[i].(status := Confirmed)
    ensures forall i :: 0 <= i < |txs| && txs[i].id != id ==> r[i] == txs[i]
  {
    if txs == [] then []
    else [if txs[0].id == id then txs[0].(status := Confirmed) else txs[0]] + Confirm(txs[1..], id)
  }

  /** Confirming twice is confirming once. */
  lemma ConfirmIdempotent(txs: seq<Transaction>, id: string)
    ensures Confirm(Confirm(txs, id), id) == Confirm(txs, id)
  {
    var once := Confirm(txs, id);
    assert forall i :: 0 <= i < |txs| ==> Confirm(once, id)[i] == once[i];
  }

  function IsConfirmed(tx: Transaction): bool
  {
    tx.status == Confirmed
  }

  function ConfirmedOnly(txs: seq<Transaction>): (r: seq<Transaction>)
    ensures forall i :: 0 <= i < |r| ==> r[i].status == Confirmed && r[i] in txs
    ensures forall i :: 0 <= i < |txs| && txs[i].status == Confirmed ==> txs[i] in r
    ensures forall t :: multiset(r)[t] == if t.status == Confirmed then multiset(txs)[t] else 0
  {
    var r := Seqs.Filter(txs, IsConfirmed);
    assert forall t :: multiset(r)[t] == if IsConfirmed(t) then multiset(txs)[t] else 0;
    r
  }

  /** The export keeps the list's order: the confirmed part of a concatenation is the
      concatenation of the confirmed parts. */
  lemma ConfirmedOnlyAppend(a: seq<Transaction>, b: seq<Transaction>)
    ensures ConfirmedOnly(a + b) == ConfirmedOnly(a) + ConfirmedOnly(b)
  {
    Seqs.FilterAppend(a, b, IsConfirmed);
  }

  datatype Export = Export(address: string, transactions: seq<Transaction>, network: string)

  /** `exportWallet()`: fails when the wallet is not ready; otherwise the address and the
      confirmed transactions only. */
  function ExportWallet(h: Hook, w: Wallet): (r: Result<Export, string>)
    ensures !Ready(w) <==> r == Failure(WalletNotConnected)
    ensures r.Success? ==> r.value.address == w.address && r.value.network == "ethereum"
    ensures r.Success? ==> r.value.transactions == ConfirmedOnly(h.transactions)
  {
    if !Ready(w) then Failure(WalletNotConnected)
    else Success(Export(w.address, ConfirmedOnly(h.transactions), "ethereum"))
  }

  /** A freshly sent transaction is left out of an export until its confirmation arrives,
      and is the first exported transaction afterwards. */
  lemma SentTransactionExportedOnceConfirmed(h: Hook, w: Wallet, to: string, amount: real, token: string, now: nat,
                                             hashDigits: string, gasRoll: real, priceRoll: real)
    requires 0.0 <= gasRoll < 1.0 && 0.0 <= priceRoll < 1.0
    requires Ready(w)
    ensures var h' := SendTransaction(h, w, to, amount, token, now, hashDigits, gasRoll, priceRoll).value.0;
            && ExportWallet(h', w).value.transactions == ConfirmedOnly(h.transactions)
            && ExportWallet(h'.(transactions := Confirm(h'.transactions, TxId(now))), w).value.transactions[0]
                 == h'.transactions[0].(status := Confirmed)
  {
    var h' := SendTransaction(h, w, to, amount, token, now, hashDigits, gasRoll, priceRoll).value.0;
    assert h'.transactions == [h'.transactions[0]] + h.transactions;
    var c := Confirm(h'.transactions, TxId(now));
    assert c == [c[0]] + c[1..];
  }

  /** The explorer base URL of each known network. */
  function ExplorerBase(network: string): (r: Option<string>)
    ensures r.Some? <==> network in {"ethereum", "polygon", "bsc", "ton"}
    ensures r.Some? ==> |r.value| > 4 && r.value[|r.value| - 4..] == "/tx/"
  {
    match network
    case "ethereum" => Some("https://etherscan.io/tx/")
    case "polygon" => Some("https://polygonscan.com/tx/")
    case "bsc" => Some("https://bscscan.com/tx/")
    case "ton" => Some("https://tonscan.org/tx/")
    case _ => None
  }

  /** The URL `viewOnExplorer` opens: the network's base URL followed by the hash, with an
      unknown network falling back to the Ethereum explorer. */
  function ExplorerUrl(txHash: string, network: string): (r: string)
    ensures ExplorerBase(network).Some? ==> r == ExplorerBase(network).value + txHash
    ensures ExplorerBase(network).None? ==> r == "https://etherscan.io/tx/" + txHash
    ensures r[|r| - |txHash|..] == txHash
  {
    var base := match ExplorerBase(network) case Some(b) => b case None => "https://etherscan.io/tx/";
    base + txHash
  }

  /** `getTransactionHistory()`: empty when the wallet is not ready, else every transaction. */
  function GetTransactionHistory(h: Hook, w: Wallet): (r: seq<Transaction>)
    ensures !Ready(w) ==> r == []
    ensures Ready(w) ==> r == h.transactions
  {
    if !Ready(w) then [] else h.transactions
  }

  /** The hash can be read back from any explorer link: for a fixed network, distinct hashes
      give distinct URLs. */
  lemma ExplorerUrlDeterminesHash(a: string, b: string, network: string)
    requires ExplorerUrl(a, network) == ExplorerUrl(b, network)
    ensures a == b
  {
    var base := if ExplorerBase(network).Some? then ExplorerBase(network).value else "https://etherscan.io/tx/";
    assert ExplorerUrl(a, network)[|base|..] == a;
    assert ExplorerUrl(b, network)[|base|..] == b;
  }

  /** On a ready wallet the history shows a sent transaction first, ahead of the earlier
      ones. */
  lemma HistoryShowsSentTransaction(h: Hook, w: Wallet, to: string, amount: real, token: string, now: nat,
                                    hashDigits: string, gasRoll: real, priceRoll: real)
    requires 0.0 <= gasRoll < 1.0 && 0.0 <= priceRoll < 1.0
    requires Ready(w)
    ensures var sent := SendTransaction(h, w, to, amount, token, now, hashDigits, gasRoll, priceRoll).value;
            var history := GetTransactionHistory(sent.0, w);
            && |history| == |h.transactions| + 1
            && history[0].hash == sent.1 && history[0].status == Pending
            && history[1..] == GetTransactionHistory(h, w)
  {
  }
}

=== FILE: js_string.dfy ===
/** The two pieces of JavaScript string behaviour the application relies on:
    `String.prototype.slice` (negative indices count from the end, indices are clamped)
    and the decimal rendering of a non-negative integer (`${n}`). */
module JsString {

  /** Resolves one `slice` argument against a string of length `len`. */
  function ResolveIndex(i: int, len: nat): (k: nat)
    ensures k <= len
    ensures 0 <= i <= len ==> k == i
    ensures i < 0 && len + i >= 0 ==> k == len + i
    ensures (i < 0 && len + i < 0) ==> k == 0
    ensures i > len ==> k == len
  {
    if i < 0 then (if len + i < 0 then 0 else len + i)
    else if i > len then len
    else i
  }

  /** `s.slice(start, end)`: empty when the resolved end does not lie past the resolved start. */
  function Slice(s: string, start: int, end: int): (r: string)
    ensures |r| <= |s|
  {
    var b := ResolveIndex(start, |s|);
    var e := ResolveIndex(end, |s|);
    if e <= b then "" else s[b..e]
  }

  /** `s.slice(start)`, whose end defaults to the length of the string. */
  function SliceFrom(s: string, start: int): (r: string)
    ensures |r| <= |s|
  {
    Slice(s, start, |s|)
  }

  /** `s.slice(0, n)` is the first `n` characters, or all of `s` when it is shorter. */
  lemma SliceHead(s: string, n: nat)
    ensures Slice(s, 0, n) == if n <= |s| then s[..n] else s
  {
  }

  /** `s.slice(-n)` for a positive `n` is the last `n` characters, or all of `s`. */
  lemma SliceTail(s: string, n: nat)
    requires n > 0
    ensures SliceFrom(s, -(n as int)) == if n <= |s| then s[|s| - n..] else s
  {
  }

  /** `s.slice(-0)` is `s.slice(0)`: the whole string, not the empty tail. */
  lemma SliceNegativeZero(s: string)
    ensures SliceFrom(s, -0) == s
  {
  }

  function DigitChar(d: nat): (c: char)
    requires d < 10
    ensures '0' <= c <= '9'
    ensures (c as int) - ('0' as int) == d
  {
    (('0' as int) + d) as char
  }

  predicate IsDigits(s: string)
  {
    forall i :: 0 <= i < |s| ==> '0' <= s[i] <= '9'
  }

  /** The decimal rendering of `n`, without leading zeros. */
  function Decimal(n: nat): (r: string)
    ensures |r| >= 1
    ensures IsDigits(r)
    ensures |r| > 1 ==> r[0] != '0'
    decreases n
  {
    if n < 10 then [DigitChar(n)] else Decimal(n / 10) + [DigitChar(n % 10)]
  }

  /** Reads a string of decimal digits back as a number. */
  function DigitsValue(s: string): nat
    requires IsDigits(s)
  {
    if s == [] then 0
    else DigitsValue(s[..|s| - 1]) * 10 + ((s[|s| - 1] as int) - ('0' as int))
  }

  /** Rendering a number and reading it back gives the number. */
  lemma {:induction false} DecimalRoundTrip(n: nat)
    ensures DigitsValue(Decimal(n)) == n
    decreases n
  {
    if n >= 10 {
      var r := Decimal(n);
      assert r[..|r| - 1] == Decimal(n / 10);
      DecimalRoundTrip(n / 10);
    }
  }

  /** Distinct numbers render to distinct strings. */
  lemma DecimalInjective(a: nat, b: nat)
    requires a != b
    ensures Decimal(a) != Decimal(b)
  {
    DecimalRoundTrip(a);
    DecimalRoundTrip(b);
  }
}

=== FILE: kyc.dfy ===
/** Identity verification: the mock provider's per-session status machine and the manager
    that maps each user to their latest session. `Math.random()` draws are `real`
    parameters in [0, 1), and `Date.now()` is a millisecond parameter. */
module Kyc {
  import opened Wrappers

  /** The status a provider reports for a session. */
  datatype Verdict = Pending | Approved | Rejected

  /** The status the manager reports for a user. */
  datatype KycStatus = NotStarted | Reported(verdict: Verdict)

  datatype Session = Session(userId: string, status: Verdict, createdAt: int)

  datatype Provider = Provider(sessions: map<string, Session>)

  const SessionNotFound := "Session not found"
  const MinuteMs := 1000 * 60

  /** `initialStatuses[Math.floor(Math.random() * 3)]`. */
  function InitialStatus(roll: real): (v: Verdict)
    requires 0.0 <= roll < 1.0
    ensures roll < 1.0 / 3.0 ==> v == Pending
    ensures 1.0 / 3.0 <= roll < 2.0 / 3.0 ==> v == Approved
    ensures 2.0 / 3.0 <= roll ==> v == Rejected
  {
    var index := (roll * 3.0).Floor;
    assert 0 <= index < 3;
    [Pending, Approved, Rejected][index]
  }

  /** `start(userId)`: records a new session with a randomly drawn initial status. */
  function Start(p: Provider, userId: string, sessionId: string, roll: real, now: int): (r: Provider)
    requires 0.0 <= roll < 1.0
    ensures sessionId in r.sessions
    ensures r.sessions[sessionId].userId == userId && r.sessions[sessionId].createdAt == now
    ensures r.sessions[sessionId].status == InitialStatus(roll)
    ensures forall s :: s in p.sessions && s != sessionId ==> s in r.sessions && r.sessions[s] == p.sessions[s]
    ensures r.sessions.Keys == p.sessions.Keys + {sessionId}
  {
    Provider(p.sessions[sessionId := Session(userId, InitialStatus(roll), now)])
  }

  /** The minutes since creation exceed five exactly when more than 300000 ms have passed. */
  lemma FiveMinutesInMilliseconds(createdAt: int, now: int)
    ensures ((now - createdAt) as real / (MinuteMs as real) > 5.0) <==> now - createdAt > 300000
  {
  }

  /** `getStatus(sessionId)`: fails for an unknown session; a pending session older than
      five minutes is decided (rejected when the draw exceeds 0.7, approved otherwise) and
      the decision is stored; any other session is reported as it is. */
  function GetStatus(p: Provider, sessionId: string, now: int, roll: real): (r: Result<(Provider, Verdict), string>)
    ensures sessionId !in p.sessions <==> r == Failure(SessionNotFound)
    ensures r.Success? ==> r.value.0.sessions.Keys == p.sessions.Keys
    ensures r.Success? ==> sessionId in r.value.0.sessions && r.value.0.sessions[sessionId].status == r.value.1
    ensures r.Success? ==> forall s :: s in p.sessions && s != sessionId ==> r.value.0.sessions[s] == p.sessions[s]
    ensures r.Success? && p.sessions[sessionId].status != Pending ==> r.value == (p, p.sessions[sessionId].status)
    ensures r.Success? && r.value.1 != Pending && p.sessions[sessionId].status == Pending ==>
              now - p.sessions[sessionId].createdAt > 300000
    ensures r.Success? && p.sessions[sessionId].status == Pending && now - p.sessions[sessionId].createdAt > 300000 ==>
              r.value.1 == (if roll > 0.7 then Rejected else Approved)
    ensures r.Success? ==>
              && r.value.0.sessions[sessionId].userId == p.sessions[sessionId].userId
              && r.value.0.sessions[sessionId].createdAt == p.sessions[sessionId].createdAt
  {
    if sessionId !in p.sessions then Failure(SessionNotFound)
    else
      var session := p.sessions[sessionId];
      if session.status == Pending
         && (now - session.createdAt) as real / (MinuteMs as real) > 5.0
      then
        var decided := session.(status := if roll > 0.7 then Rejected else Approved);
        Success((Provider(p.sessions[sessionId := decided]), decided.status))
      else
        Success((p, session.status))
  }

  /** Once a session is decided its status never changes, whatever the clock or the draw. */
  lemma DecidedIsFinal(p: Provider, sessionId: string, now: int, roll: real, now': int, roll': real)
    requires sessionId in p.sessions
    requires GetStatus(p, sessionId, now, roll).value.1 != Pending
    ensures var first := GetStatus(p, sessionId, now, roll).value;
            GetStatus(first.0, sessionId, now', roll') == Success(first)
  {
  }

  /** A pending session younger than five minutes stays pending. */
  lemma YoungSessionStaysPending(p: Provider, sessionId: string, now: int, roll: real)
    requires sessionId in p.sessions && p.sessions[sessionId].status == Pending
    requires now - p.sessions[sessionId].createdAt <= 300000
    ensures GetStatus(p, sessionId, now, roll) == Success((p, Pending))
  {
  }

  /** `resetSessions()`. */
  function ResetSessions(p: Provider): (r: Provider)
    ensures forall s, now, roll :: GetStatus(r, s, now, roll) == Failure(SessionNotFound)
  {
    Provider(map[])
  }

  /** `createKycProvider(type)`: only the mock provider exists. */
  function CreateKycProvider(providerType: string): (r: Result<Provider, string>)
    ensures r.Success? <==> providerType == "mock"
    ensures r.Success? ==> r.value.sessions == map[]
    ensures providerType == "persona" ==> r == Failure("Persona provider not implemented yet")
    ensures providerType == "sumsub" ==> r == Failure("Sumsub provider not implemented yet")
    ensures providerType == "veriff" ==> r == Failure("Veriff provider not implemented yet")
    ensures providerType !in {"mock", "persona", "sumsub", "veriff"} ==>
              r == Failure("Unknown KYC provider type: " + providerType)
  {
    match providerType
    case "mock" => Success(Provider(map[]))
    case "persona" => Failure("Persona provider not implemented yet")
    case "sumsub" => Failure("Sumsub provider not implemented yet")
    case "veriff" => Failure("Veriff provider not implemented yet")
    case _ => Failure("Unknown KYC provider type: " + providerType)
  }

  /** A freshly created mock provider knows no session: every status query fails. */
  lemma FreshProviderKnowsNoSession(sessionId: string, now: int, roll: real)
    ensures CreateKycProvider("mock").Success?
    ensures GetStatus(CreateKycProvider("mock").value, sessionId, now, roll) == Failure(SessionNotFound)
  {
  }

  // ---------------------------------------------------------------------------
  // The manager.

  datatype Manager = Manager(provider: Provider, userSessions: map<string, string>)

  /** Every session the manager points at exists at the provider. */
  predicate Tracked(m: Manager)
  {
    forall u :: u in m.userSessions ==> m.userSessions[u] in m.provider.sessions
  }

  /** `startKyc(userId)`: starts a session and makes it the user's current one, replacing
      any earlier session of that user. */
  function StartKyc(m: Manager, userId: string, sessionId: string, roll: real, now: int): (r: Manager)
    requires 0.0 <= roll < 1.0
    ensures userId in r.userSessions && r.userSessions[userId] == sessionId
    ensures forall u :: u != userId && u in m.userSessions ==> u in r.userSessions && r.userSessions[u] == m.userSessions[u]
    ensures r.userSessions.Keys == m.userSessions.Keys + {userId}
    ensures Tracked(m) ==> Tracked(r)
  {
    Manager(Start(m.provider, userId, sessionId, roll, now), m.userSessions[userId := sessionId])
  }

  /** `getKycStatus(userId)`: not started for a user without a session (or with an empty
      session id, which JavaScript treats as false); a provider failure is reported as
      pending; otherwise the provider's answer, whose effect on the session is kept. */
  function GetKycStatus(m: Manager, userId: string, now: int, roll: real): (r: (Manager, KycStatus))
    ensures r.1 == NotStarted <==> userId !in m.userSessions || m.userSessions[userId] == ""
    ensures r.0.userSessions == m.userSessions
    ensures Tracked(m) ==> Tracked(r.0)
    ensures userId in m.userSessions && m.userSessions[userId] != "" && m.userSessions[userId] !in m.provider.sessions ==>
              r == (m, Reported(Pending))
    ensures userId in m.userSessions && m.userSessions[userId] != "" && m.userSessions[userId] in m.provider.sessions ==>
              var g := GetStatus(m.provider, m.userSessions[userId], now, roll).value;
              r == (m.(provider := g.0), Reported(g.1))
  {
    if userId !in m.userSessions || m.userSessions[userId] == "" then (m, NotStarted)
    else match GetStatus(m.provider, m.userSessions[userId], now, roll)
      case Failure(_) => (m, Reported(Pending))
      case Success((p, v)) => (m.(provider := p), Reported(v))
  }

  /** `isKycApproved(userId)`. */
  function IsKycApproved(m: Manager, userId: string, now: int, roll: real): (r: (Manager, bool))
    ensures r.1 <==> GetKycStatus(m, userId, now, roll).1 == Reported(Approved)
    ensures r.0 == GetKycStatus(m, userId, now, roll).0
  {
    var (m', status) := GetKycStatus(m, userId, now, roll);
    (m', status == Reported(Approved))
  }

  /** A user who has started verification is never reported as not started afterwards, and
      while the manager only points at live sessions it reports the provider's own answer. */
  lemma StartedUserReportsProviderStatus(m: Manager, userId: string, sessionId: string, roll: real, now: int,
                                        later: int, roll': real)
    requires 0.0 <= roll < 1.0 && sessionId != ""
    ensures var m' := StartKyc(m, userId, sessionId, roll, now);
            GetKycStatus(m', userId, later, roll').1
              == Reported(GetStatus(m'.provider, sessionId, later, roll').value.1)
  {
  }

  /** Starting fresh and approving at once needs no waiting: a session drawn approved is
      approved immediately. */
  lemma ApprovedDrawIsImmediate(m: Manager, userId: string, sessionId: string, now: int, roll': real)
    requires sessionId != ""
    ensures IsKycApproved(StartKyc(m, userId, sessionId, 0.5, now), userId, now, roll').1
  {
  }
}

=== FILE: mock_firebase.dfy ===
/** The in-memory development store (`MockFirebaseService`): users, staking positions and
    transaction logs, each a JavaScript `Map` keyed by id. Ids that the source draws from
    the clock and `Math.random()` are parameters, and so is the current time (`now`, in
    milliseconds). The service's methods are `async` but never await anything, so each is
    one atomic transition. */
module MockFirebase {
  import opened Wrappers
  import OrderedMap
  import Seqs

  datatype KycStatus = NotStarted | Pending | Approved | Rejected

  datatype User = User(
    uid: string,
    email: string,
    displayName: Option<string>,
    photoURL: Option<string>,
    kycStatus: KycStatus,
    createdAt: int,
    updatedAt: int)

  /** A `Partial<User>`: `None` marks a field the update does not mention. */
  datatype UserPatch = UserPatch(
    uid: Option<string>,
    email: Option<string>,
    displayName: Option<string>,
    photoURL: Option<string>,
    kycStatus: Option<KycStatus>,
    createdAt: Option<int>)

  datatype StakingPosition = StakingPosition(
    id: string,
    userId: string,
    network: string,
    apy: real,
    amount: real,
    lockDays: int,
    pendingRewards: real,
    earned: real,
    createdAt: int,
    updatedAt: int)

  /** The argument of `createStakingPosition`: a position without id and timestamps. */
  datatype PositionDraft = PositionDraft(
    userId: string,
    network: string,
    apy: real,
    amount: real,
    lockDays: int,
    pendingRewards: real,
    earned: real)

  /** A `Partial<StakingPosition>`. */
  datatype PositionPatch = PositionPatch(
    id: Option<string>,
    userId: Option<string>,
    network: Option<string>,
    apy: Option<real>,
    amount: Option<real>,
    lockDays: Option<int>,
    pendingRewards: Option<real>,
    earned: Option<real>,
    createdAt: Option<int>)

  datatype LogKind = Stake | Claim | Withdraw
  datatype LogStatus = LogPending | Completed | Failed

  datatype TransactionLog = TransactionLog(
    id: string,
    userId: string,
    kind: LogKind,
    amount: real,
    network: string,
    txHash: Option<string>,
    status: LogStatus,
    createdAt: int)

  /** The argument of `createTransactionLog`: a log without id and timestamp. */
  datatype LogDraft = LogDraft(
    userId: string,
    kind: LogKind,
    amount: real,
    network: string,
    txHash: Option<string>,
    status: LogStatus)

  datatype Store = Store(
    users: seq<OrderedMap.Entry<User>>,
    positions: seq<OrderedMap.Entry<StakingPosition>>,
    logs: seq<OrderedMap.Entry<TransactionLog>>)

  const Empty := Store([], [], [])

  function Pick<T>(patched: Option<T>, current: T): T
  {
    match patched
    case Some(v) => v
    case None => current
  }

  /** `{ ...user, ...updates, updatedAt: now }`. */
  function MergeUser(u: User, p: UserPatch, now: int): (r: User)
    ensures r.updatedAt == now
    ensures p.uid.Some? ==> r.uid == p.uid.value
    ensures p.uid.None? ==> r.uid == u.uid
    ensures p.email.Some? ==> r.email == p.email.value
    ensures p.email.None? ==> r.email == u.email
    ensures p.kycStatus.Some? ==> r.kycStatus == p.kycStatus.value
    ensures p.kycStatus.None? ==> r.kycStatus == u.kycStatus
    ensures p.createdAt.Some? ==> r.createdAt == p.createdAt.value
    ensures p.createdAt.None? ==> r.createdAt == u.createdAt
    ensures p.displayName.Some? ==> r.displayName == p.displayName
    ensures p.displayName.None? ==> r.displayName == u.displayName
    ensures p.photoURL.Some? ==> r.photoURL == p.photoURL
    ensures p.photoURL.None? ==> r.photoURL == u.photoURL
  {
    User(Pick(p.uid, u.uid), Pick(p.email, u.email),
         if p.displayName.Some? then p.displayName else u.displayName,
         if p.photoURL.Some? then p.photoURL else u.photoURL,
         Pick(p.kycStatus, u.kycStatus), Pick(p.createdAt, u.createdAt), now)
  }

  /** `{ ...position, ...updates, updatedAt: now }`. */
  function MergePosition(s: StakingPosition, p: PositionPatch, now: int): (r: StakingPosition)
    ensures r.updatedAt == now
    ensures p.id.Some? ==> r.id == p.id.value
    ensures p.id.None? ==> r.id == s.id
    ensures p.userId.Some? ==> r.userId == p.userId.value
    ensures p.userId.None? ==> r.userId == s.userId
    ensures p.network.Some? ==> r.network == p.network.value
    ensures p.network.None? ==> r.network == s.network
    ensures p.apy.Some? ==> r.apy == p.apy.value
    ensures p.apy.None? ==> r.apy == s.apy
    ensures p.amount.Some? ==> r.amount == p.amount.value
    ensures p.amount.None? ==> r.amount == s.amount
    ensures p.lockDays.Some? ==> r.lockDays == p.lockDays.value
    ensures p.lockDays.None? ==> r.lockDays == s.lockDays
    ensures p.pendingRewards.Some? ==> r.pendingRewards == p.pendingRewards.value
    ensures p.pendingRewards.None? ==> r.pendingRewards == s.pendingRewards
    ensures p.earned.Some? ==> r.earned == p.earned.value
    ensures p.earned.None? ==> r.earned == s.earned
    ensures p.createdAt.Some? ==> r.createdAt == p.createdAt.value
    ensures p.createdAt.None? ==> r.createdAt == s.createdAt
  {
    StakingPosition(Pick(p.id, s.id), Pick(p.userId, s.userId), Pick(p.network, s.network),
                    Pick(p.apy, s.apy), Pick(p.amount, s.amount), Pick(p.lockDays, s.lockDays),
                    Pick(p.pendingRewards, s.pendingRewards), Pick(p.earned, s.earned),
                    Pick(p.createdAt, s.createdAt), now)
  }

  /** Patch `q` laid over patch `p`: every field `q` mentions wins. */
  function OverUser(q: UserPatch, p: UserPatch): UserPatch
  {
    UserPatch(if q.uid.Some? then q.uid else p.uid,
              if q.email.Some? then q.email else p.email,
              if q.displayName.Some? then q.displayName else p.displayName,
              if q.photoURL.Some? then q.photoURL else p.photoURL,
              if q.kycStatus.Some? then q.kycStatus else p.kycStatus,
              if q.createdAt.Some? then q.createdAt else p.createdAt)
  }

  /** Two successive user updates amount to one update with the later patch laid over the
      earlier, stamped with the later time. */
  lemma MergeUserTwice(u: User, p: UserPatch, q: UserPatch, t1: int, t2: int)
    ensures MergeUser(MergeUser(u, p, t1), q, t2) == MergeUser(u, OverUser(q, p), t2)
  {
  }

  /** Patch `q` laid over patch `p`. */
  function OverPosition(q: PositionPatch, p: PositionPatch): PositionPatch
  {
    PositionPatch(if q.id.Some? then q.id else p.id,
                  if q.userId.Some? then q.userId else p.userId,
                  if q.network.Some? then q.network else p.network,
                  if q.apy.Some? then q.apy else p.apy,
                  if q.amount.Some? then q.amount else p.amount,
                  if q.lockDays.Some? then q.lockDays else p.lockDays,
                  if q.pendingRewards.Some? then q.pendingRewards else p.pendingRewards,
                  if q.earned.Some? then q.earned else p.earned,
                  if q.createdAt.Some? then q.createdAt else p.createdAt)
  }

  /** Two successive position updates amount to one update with the later patch laid over
      the earlier. */
  lemma MergePositionTwice(x: StakingPosition, p: PositionPatch, q: PositionPatch, t1: int, t2: int)
    ensures MergePosition(MergePosition(x, p, t1), q, t2) == MergePosition(x, OverPosition(q, p), t2)
  {
  }

  // ---------------------------------------------------------------------------
  // Users.

  /** `createUser(email, password)`: a fresh user with KYC not started, stored under its
      uid; the password is ignored. */
  function CreateUser(s: Store, email: string, password: string, uid: string, now: int): (r: (Store, User))
    ensures r.1.uid == uid && r.1.email == email && r.1.kycStatus == NotStarted
    ensures GetUser(r.0, uid) == Some(r.1)
    ensures forall u :: u != uid ==> GetUser(r.0, u) == GetUser(s, u)
    ensures r.0.positions == s.positions && r.0.logs == s.logs
  {
    var user := User(uid, email, None, None, NotStarted, now, now);
    (s.(users := OrderedMap.Set(s.users, uid, user)), user)
  }

  /** `getUser(uid)`: `None` (the source's `null`) for an unknown uid. */
  function GetUser(s: Store, uid: string): (r: Option<User>)
    ensures r.None? <==> !OrderedMap.HasKey(s.users, uid)
  {
    OrderedMap.Get(s.users, uid)
  }

  /** `updateUser(uid, updates)`: a no-op for an unknown uid, otherwise the merge replaces
      the stored record; no other user changes. */
  function UpdateUser(s: Store, uid: string, patch: UserPatch, now: int): (r: Store)
    ensures GetUser(s, uid).None? ==> r == s
    ensures GetUser(s, uid).Some? ==> GetUser(r, uid) == Some(MergeUser(GetUser(s, uid).value, patch, now))
    ensures forall u :: u != uid ==> GetUser(r, u) == GetUser(s, u)
    ensures r.positions == s.positions && r.logs == s.logs
  {
    match GetUser(s, uid)
    case None => s
    case Some(user) => s.(users := OrderedMap.Set(s.users, uid, MergeUser(user, patch, now)))
  }

  // ---------------------------------------------------------------------------
  // Staking positions.

  /** The filter callback `pos => pos.userId === userId`. */
  function PositionOf(userId: string): StakingPosition -> bool
  {
    (p: StakingPosition) => p.userId == userId
  }

  function GetPosition(s: Store, id: string): Option<StakingPosition>
  {
    OrderedMap.Get(s.positions, id)
  }

  /** `createStakingPosition(draft)`: the draft's fields under the given id, stored under
      that id; other positions are untouched. */
  function CreateStakingPosition(s: Store, draft: PositionDraft, id: string, now: int): (r: (Store, StakingPosition))
    ensures r.1 == StakingPosition(id, draft.userId, draft.network, draft.apy, draft.amount, draft.lockDays,
                                   draft.pendingRewards, draft.earned, now, now)
    ensures GetPosition(r.0, id) == Some(r.1)
    ensures forall k :: k != id ==> GetPosition(r.0, k) == GetPosition(s, k)
    ensures !OrderedMap.HasKey(s.positions, id) ==> r.0.positions == s.positions + [OrderedMap.Entry(id, r.1)]
    ensures r.0.users == s.users && r.0.logs == s.logs
  {
    var position := StakingPosition(id, draft.userId, draft.network, draft.apy, draft.amount, draft.lockDays,
                                    draft.pendingRewards, draft.earned, now, now);
    (s.(positions := OrderedMap.Set(s.positions, id, position)), position)
  }

  /** `getStakingPositions(userId)`: the stored positions of that user, in insertion order. */
  function GetStakingPositions(s: Store, userId: string): (r: seq<StakingPosition>)
    ensures forall i :: 0 <= i < |r| ==> r[i].userId == userId && r[i] in OrderedMap.Values(s.positions)
    ensures forall e :: e in s.positions && e.value.userId == userId ==> e.value in r
    ensures forall x :: multiset(r)[x] == if x.userId == userId then multiset(OrderedMap.Values(s.positions))[x] else 0
  {
    var r := Seqs.Filter(OrderedMap.Values(s.positions), PositionOf(userId));
    assert forall x :: multiset(r)[x] == if PositionOf(userId)(x) then multiset(OrderedMap.Values(s.positions))[x] else 0;
    r
  }

  /** `updateStakingPosition(id, updates)`: a no-op for an unknown id, otherwise a merge. */
  function UpdateStakingPosition(s: Store, id: string, patch: PositionPatch, now: int): (r: Store)
    ensures GetPosition(s, id).None? ==> r == s
    ensures GetPosition(s, id).Some? ==> GetPosition(r, id) == Some(MergePosition(GetPosition(s, id).value, patch, now))
    ensures forall k :: k != id ==> GetPosition(r, k) == GetPosition(s, k)
    ensures r.users == s.users && r.logs == s.logs
  {
    match GetPosition(s, id)
    case None => s
    case Some(position) => s.(positions := OrderedMap.Set(s.positions, id, MergePosition(position, patch, now)))
  }

  // ---------------------------------------------------------------------------
  // Transaction logs.

  function GetLog(s: Store, id: string): Option<TransactionLog>
  {
    OrderedMap.Get(s.logs, id)
  }

  /** `createTransactionLog(draft)`. */
  function CreateTransactionLog(s: Store, draft: LogDraft, id: string, now: int): (r: (Store, TransactionLog))
    ensures r.1 == TransactionLog(id, draft.userId, draft.kind, draft.amount, draft.network, draft.txHash, draft.status, now)
    ensures GetLog(r.0, id) == Some(r.1)
    ensures forall k :: k != id ==> GetLog(r.0, k) == GetLog(s, k)
    ensures !OrderedMap.HasKey(s.logs, id) ==> r.0.logs == s.logs + [OrderedMap.Entry(id, r.1)]
    ensures r.0.users == s.users && r.0.positions == s.positions
  {
    var log := TransactionLog(id, draft.userId, draft.kind, draft.amount, draft.network, draft.txHash, draft.status, now);
    (s.(logs := OrderedMap.Set(s.logs, id, log)), log)
  }

  /** The filter callback `log => log.userId === userId`. */
  function LogOf(userId: string): TransactionLog -> bool
  {
    (l: TransactionLog) => l.userId == userId
  }

  function CreatedAt(l: TransactionLog): int
  {
    l.createdAt
  }

  /** `getTransactionLogs(userId)`: that user's logs, newest first; logs created in the same
      millisecond keep their insertion order. */
  function GetTransactionLogs(s: Store, userId: string): (r: seq<TransactionLog>)
    ensures forall i :: 0 <= i < |r| ==> r[i].userId == userId
    ensures forall i, j :: 0 <= i < j < |r| ==> r[i].createdAt >= r[j].createdAt
    ensures forall l :: multiset(r)[l] == if l.userId == userId then multiset(OrderedMap.Values(s.logs))[l] else 0
    ensures forall e :: e in s.logs && e.value.userId == userId ==> e.value in r
  {
    var vals := OrderedMap.Values(s.logs);
    var mine := Seqs.Filter(vals, LogOf(userId));
    var r := Seqs.SortDesc(mine, CreatedAt);
    SameElements(mine, r);
    UsersLogsSelected(s, userId, r);
    r
  }

  /** A permutation of the filtered logs holds each of the user's logs as often as the store
      does, and nothing else. */
  lemma UsersLogsSelected(s: Store, userId: string, r: seq<TransactionLog>)
    requires multiset(r) == multiset(Seqs.Filter(OrderedMap.Values(s.logs), LogOf(userId)))
    ensures forall l :: multiset(r)[l] == if l.userId == userId then multiset(OrderedMap.Values(s.logs))[l] else 0
    ensures forall e :: e in s.logs && e.value.userId == userId ==> e.value in r
  {
    var vals := OrderedMap.Values(s.logs);
    var mine := Seqs.Filter(vals, LogOf(userId));
    forall l
      ensures multiset(r)[l] == if l.userId == userId then multiset(vals)[l] else 0
    {
      assert multiset(mine)[l] == if LogOf(userId)(l) then multiset(vals)[l] else 0;
    }
    forall e | e in s.logs && e.value.userId == userId
      ensures e.value in r
    {
      assert e.value in vals;
      assert multiset(vals)[e.value] > 0;
      assert multiset(r)[e.value] > 0;
    }
  }

  /** Two sequences with the same multiset hold the same elements. */
  lemma SameElements<T>(a: seq<T>, b: seq<T>)
    requires multiset(a) == multiset(b)
    ensures forall i :: 0 <= i < |a| ==> a[i] in b
    ensures forall i :: 0 <= i < |b| ==> b[i] in a
  {
    forall i | 0 <= i < |a| ensures a[i] in b {
      assert a[i] in multiset(a);
    }
    forall i | 0 <= i < |b| ensures b[i] in a {
      assert b[i] in multiset(b);
    }
  }

  // ---------------------------------------------------------------------------
  // Seeding and reset.

  const MockUserId := "mock-user-1"
  const WeekMs := 7 * 24 * 60 * 60 * 1000

  function MockUser(now: int): (r: User)
    ensures r.uid == MockUserId && r.kycStatus == Approved
    ensures now - r.createdAt == 604800000 && r.updatedAt == now
  {
    User(MockUserId, "demo@amara.com", Some("Demo User"), None, Approved, now - WeekMs, now)
  }

  function MockPositionDrafts(): (r: seq<PositionDraft>)
    ensures |r| == 3
    ensures forall i :: 0 <= i < |r| ==> r[i].userId == MockUserId && r[i].amount > 0.0 && r[i].apy > 0.0
  {
    [ PositionDraft(MockUserId, "Altcoin Staking", 12.5, 5089.65, 3, 5697.52, 1892.01),
      PositionDraft(MockUserId, "BTC Staking", 15.6, 3500.00, 7, 4200.00, 1892.01),
      PositionDraft(MockUserId, "Meme Staking", 15.6, 2800.00, 14, 3360.00, 1892.01) ]
  }

  function MockLogDrafts(): (r: seq<LogDraft>)
    ensures |r| == 2
    ensures forall i :: 0 <= i < |r| ==> r[i].userId == MockUserId && r[i].status == Completed
  {
    [ LogDraft(MockUserId, Stake, 1000.0, "Altcoin Staking", None, Completed),
      LogDraft(MockUserId, Claim, 150.25, "BTC Staking", None, Completed) ]
  }

  /** `seedMockData()`: the demo user, three positions and two logs, added to whatever the
      store already holds; `positionIds` and `logIds` are the fresh ids drawn for them. */
  function SeedMockData(s: Store, positionIds: seq<string>, logIds: seq<string>, now: int): (r: Store)
    requires |positionIds| == 3 && |logIds| == 2
    ensures GetUser(r, MockUserId) == Some(MockUser(now))
  {
    var s1 := s.(users := OrderedMap.Set(s.users, MockUserId, MockUser(now)));
    var drafts := MockPositionDrafts();
    var s2 := CreateStakingPosition(s1, drafts[0], positionIds[0], now).0;
    var s3 := CreateStakingPosition(s2, drafts[1], positionIds[1], now).0;
    var s4 := CreateStakingPosition(s3, drafts[2], positionIds[2], now).0;
    var logs := MockLogDrafts();
    var s5 := CreateTransactionLog(s4, logs[0], logIds[0], now).0;
    CreateTransactionLog(s5, logs[1], logIds[1], now).0
  }

  /** Seeding an empty store with distinct fresh ids yields one user, three positions all
      owned by the demo user, and two logs of that user. */
  lemma SeedShape(positionIds: seq<string>, logIds: seq<string>, now: int)
    requires |positionIds| == 3 && |logIds| == 2
    requires positionIds[0] != positionIds[1] && positionIds[0] != positionIds[2] && positionIds[1] != positionIds[2]
    requires logIds[0] != logIds[1]
    ensures var r := SeedMockData(Empty, positionIds, logIds, now);
            && |r.users| == 1
            && |r.positions| == 3
            && |r.logs| == 2
            && |GetStakingPositions(r, MockUserId)| == 3
            && |GetTransactionLogs(r, MockUserId)| == 2
  {
    SeedPositions(positionIds, logIds, now);
    SeedLogs(positionIds, logIds, now);
  }

  lemma SeedPositions(positionIds: seq<string>, logIds: seq<string>, now: int)
    requires |positionIds| == 3 && |logIds| == 2
    requires positionIds[0] != positionIds[1] && positionIds[0] != positionIds[2] && positionIds[1] != positionIds[2]
    ensures var r := SeedMockData(Empty, positionIds, logIds, now);
            && |r.users| == 1 && |r.positions| == 3
            && |GetStakingPositions(r, MockUserId)| == 3
  {
    var drafts := MockPositionDrafts();
    var s1 := Empty.(users := OrderedMap.Set(Empty.users, MockUserId, MockUser(now)));
    assert |s1.users| == 1;
    var s2 := CreateStakingPosition(s1, drafts[0], positionIds[0], now).0;
    assert |s2.positions| == 1 && s2.positions[0].key == positionIds[0];
    assert !OrderedMap.HasKey(s2.positions, positionIds[1]);
    var s3 := CreateStakingPosition(s2, drafts[1], positionIds[1], now).0;
    assert |s3.positions| == 2 && s3.positions[1].key == positionIds[1];
    assert !OrderedMap.HasKey(s3.positions, positionIds[2]);
    var s4 := CreateStakingPosition(s3, drafts[2], positionIds[2], now).0;
    assert |s4.positions| == 3;
    assert forall i :: 0 <= i < 3 ==> s4.positions[i].value.userId == MockUserId;
    var r := SeedMockData(Empty, positionIds, logIds, now);
    assert r.positions == s4.positions && r.users == s1.users;
    var vals := OrderedMap.Values(r.positions);
    assert forall i :: 0 <= i < |vals| ==> PositionOf(MockUserId)(vals[i]);
    Seqs.FilterAllKept(vals, PositionOf(MockUserId));
  }

  /** The seeded log entries: two, both of the demo user. */
  lemma SeedLogEntries(positionIds: seq<string>, logIds: seq<string>, now: int)
    requires |positionIds| == 3 && |logIds| == 2
    requires logIds[0] != logIds[1]
    ensures var r := SeedMockData(Empty, positionIds, logIds, now);
            && |r.logs| == 2
            && forall i :: 0 <= i < |r.logs| ==> r.logs[i].value.userId == MockUserId
  {
    var drafts := MockPositionDrafts();
    var s1 := Empty.(users := OrderedMap.Set(Empty.users, MockUserId, MockUser(now)));
    var s2 := CreateStakingPosition(s1, drafts[0], positionIds[0], now).0;
    var s3 := CreateStakingPosition(s2, drafts[1], positionIds[1], now).0;
    var s4 := CreateStakingPosition(s3, drafts[2], positionIds[2], now).0;
    assert s4.logs == [];
    var logs := MockLogDrafts();
    var s5 := CreateTransactionLog(s4, logs[0], logIds[0], now).0;
    assert |s5.logs| == 1 && s5.logs[0].key == logIds[0];
    assert !OrderedMap.HasKey(s5.logs, logIds[1]);
    var s6 := CreateTransactionLog(s5, logs[1], logIds[1], now).0;
    assert |s6.logs| == 2;
    assert forall i :: 0 <= i < 2 ==> s6.logs[i].value.userId == MockUserId;
    assert SeedMockData(Empty, positionIds, logIds, now).logs == s6.logs;
  }

  lemma SeedLogs(positionIds: seq<string>, logIds: seq<string>, now: int)
    requires |positionIds| == 3 && |logIds| == 2
    requires logIds[0] != logIds[1]
    ensures var r := SeedMockData(Empty, positionIds, logIds, now);
            && |r.logs| == 2
            && |GetTransactionLogs(r, MockUserId)| == 2
  {
    SeedLogEntries(positionIds, logIds, now);
    var r := SeedMockData(Empty, positionIds, logIds, now);
    var lvals := OrderedMap.Values(r.logs);
    assert forall i :: 0 <= i < |lvals| ==> LogOf(MockUserId)(lvals[i]);
    Seqs.FilterAllKept(lvals, LogOf(MockUserId));
    assert GetTransactionLogs(r, MockUserId) == Seqs.SortDesc(lvals, CreatedAt);
  }

  /** `reset()`: every map is emptied. */
  function Reset(s: Store): (r: Store)
    ensures forall u :: GetUser(r, u).None?
    ensures forall id :: GetPosition(r, id).None? && GetLog(r, id).None?
    ensures forall u :: GetStakingPositions(r, u) == [] && GetTransactionLogs(r, u) == []
  {
    Empty
  }
}

=== FILE: ordered_map.dfy ===
/** A JavaScript `Map` with string keys: lookups by key, and iteration in the order in
    which keys were first inserted (overwriting a key keeps its place). */
module OrderedMap {
  import opened Wrappers

  datatype Entry<V> = Entry(key: string, value: V)

  predicate HasKey<V>(m: seq<Entry<V>>, k: string)
  {
    exists i :: 0 <= i < |m| && m[i].key == k
  }

  predicate KeysUnique<V>(m: seq<Entry<V>>)
  {
    forall i, j :: 0 <= i < j < |m| ==> m[i].key != m[j].key
  }

  /** `map.get(k)`. */
  function Get<V>(m: seq<Entry<V>>, k: string): (r: Option<V>)
    ensures r.Some? <==> HasKey(m, k)
    ensures r.Some? ==> exists i :: 0 <= i < |m| && m[i] == Entry(k, r.value)
  {
    if m == [] then None
    else if m[0].key == k then Some(m[0].value)
    else Get(m[1..], k)
  }

  /** `map.set(k, v)`: overwrite in place when `k` is present, otherwise append. */
  function Set<V>(m: seq<Entry<V>>, k: string, v: V): (r: seq<Entry<V>>)
    ensures Get(r, k) == Some(v)
    ensures forall k' :: k' != k ==> Get(r, k') == Get(m, k')
    ensures HasKey(m, k) ==> |r| == |m|
    ensures HasKey(m, k) ==> forall i :: 0 <= i < |m| ==> r[i].key == m[i].key
    ensures HasKey(m, k) ==> forall i :: 0 <= i < |m| && m[i].key != k ==> r[i] == m[i]
    ensures !HasKey(m, k) ==> r == m + [Entry(k, v)]
    ensures KeysUnique(m) ==> KeysUnique(r)
  {
    if HasKey(m, k) then Overwrite(m, k, v)
    else
      GetAppend(m, Entry(k, v));
      m + [Entry(k, v)]
  }

  /** Looking up a key in a map with one entry appended at the end. */
  lemma {:induction false} GetAppend<V>(m: seq<Entry<V>>, e: Entry<V>)
    ensures forall k :: Get(m + [e], k) == if HasKey(m, k) then Get(m, k) else if k == e.key then Some(e.value) else None
  {
    if m != [] {
      GetAppend(m[1..], e);
      assert (m + [e])[1..] == m[1..] + [e];
      forall k ensures HasKey(m, k) <==> m[0].key == k || HasKey(m[1..], k)
      {
        if HasKey(m, k) && m[0].key != k {
          var i :| 0 <= i < |m| && m[i].key == k;
          assert m[1..][i - 1].key == k;
        }
      }
    }
  }

  function Overwrite<V>(m: seq<Entry<V>>, k: string, v: V): (r: seq<Entry<V>>)
    requires HasKey(m, k)
    ensures |r| == |m|
    ensures forall i :: 0 <= i < |m| ==> r[i].key == m[i].key
    ensures forall i :: 0 <= i < |m| && m[i].key != k ==> r[i] == m[i]
    ensures forall i :: 0 <= i < |m| && m[i].key == k ==> r[i] == Entry(k, v)
    ensures Get(r, k) == Some(v)
    ensures forall k' :: k' != k ==> Get(r, k') == Get(m, k')
  {
    if m[0].key == k then
      if HasKey(m[1..], k) then [Entry(k, v)] + Overwrite(m[1..], k, v) else [Entry(k, v)] + m[1..]
    else
      [m[0]] + Overwrite(m[1..], k, v)
  }

  /** `Array.from(map.values())`. */
  function Values<V>(m: seq<Entry<V>>): (r: seq<V>)
    ensures |r| == |m|
    ensures forall i :: 0 <= i < |m| ==> r[i] == m[i].value
    ensures forall e :: e in m ==> e.value in r
  {
    if m == [] then [] else [m[0].value] + Values(m[1..])
  }
}

=== FILE: pull_refresh_hook.dfy ===
/** The pull-to-refresh hook (`usePullToRefresh`): touch start, move and end as transitions
    of a small state, and the indicator predicate. The scroll offset read at touch start is
    a parameter. `onRefresh` may throw; the hook swallows the error, so the outcome of a
    touch end does not depend on it. */
module PullRefreshHook {
  import opened Wrappers

  datatype Options = Options(threshold: real, resistance: real, enabled: bool)

  const Defaults := Options(80.0, 2.5, true)

  /** `start` is the recorded touch-start `y`; the recorded scroll offset is never read
      again and is not kept. */
  datatype State = State(isRefreshing: bool, pullDistance: real, canPull: bool, start: Option<real>)

  const Initial := State(false, 0.0, false, None)

  /** `Math.min(deltaY / resistance, threshold * 1.5)` for a positive `deltaY`; dividing by a
      zero resistance gives JavaScript's `Infinity`, so the cap wins. */
  function Resisted(deltaY: real, o: Options): (d: real)
    requires deltaY > 0.0
    ensures d <= 1.5 * o.threshold
    ensures o.resistance > 0.0 && o.threshold > 0.0 ==> d > 0.0
    ensures o.resistance > 0.0 && deltaY / o.resistance <= 1.5 * o.threshold ==> d == deltaY / o.resistance
    ensures o.resistance == 0.0 || (o.resistance > 0.0 && deltaY / o.resistance >= 1.5 * o.threshold) ==> d == 1.5 * o.threshold
  {
    var cap := o.threshold * 1.5;
    if o.resistance == 0.0 then cap else Min(deltaY / o.resistance, cap)
  }

  /** `handleTouchStart`: ignored when disabled or refreshing; otherwise records the touch
      and allows pulling only at the top of the page. */
  function TouchStart(s: State, o: Options, y: real, scrollTop: real): (r: State)
    ensures !o.enabled || s.isRefreshing ==> r == s
    ensures o.enabled && !s.isRefreshing ==>
              r == s.(start := Some(y), canPull := scrollTop == 0.0)
  {
    if !o.enabled || s.isRefreshing then s
    else s.(start := Some(y), canPull := scrollTop == 0.0)
  }

  /** `handleTouchMove`: only a downward pull from a recorded start, while enabled, idle and
      allowed, changes the pull distance. */
  function TouchMove(s: State, o: Options, y: real): (r: State)
    ensures r.isRefreshing == s.isRefreshing && r.canPull == s.canPull && r.start == s.start
    ensures !o.enabled || s.isRefreshing || !s.canPull || s.start.None? ==> r == s
    ensures s.start.Some? && y - s.start.value <= 0.0 ==> r == s
    ensures o.enabled && !s.isRefreshing && s.canPull && s.start.Some? && y - s.start.value > 0.0 ==>
              r.pullDistance == Resisted(y - s.start.value, o)
    ensures r.pullDistance != s.pullDistance ==>
              s.start.Some? && y - s.start.value > 0.0 && r.pullDistance == Resisted(y - s.start.value, o)
  {
    if !o.enabled || s.isRefreshing || !s.canPull || s.start.None? then s
    else
      var deltaY := y - s.start.value;
      if deltaY > 0.0 then s.(pullDistance := Resisted(deltaY, o)) else s
  }

  /** The result of a touch end: the state while `onRefresh` is awaited (if it was called)
      and the state afterwards. */
  datatype EndResult = EndResult(during: Option<State>, state: State)

  /** `handleTouchEnd`: ignored when disabled, refreshing or not allowed to pull; otherwise
      refreshes when the pull reached the threshold, and then always resets the pull. */
  function TouchEnd(s: State, o: Options): (r: EndResult)
    ensures !o.enabled || s.isRefreshing || !s.canPull ==> r == EndResult(None, s)
    ensures o.enabled && !s.isRefreshing && s.canPull ==>
              && (r.during.Some? <==> s.pullDistance >= o.threshold)
              && r.state == State(false, 0.0, false, None)
    ensures r.during.Some? ==> r.during.value.isRefreshing
  {
    if !o.enabled || s.isRefreshing || !s.canPull then EndResult(None, s)
    else
      var during := if s.pullDistance >= o.threshold then Some(s.(isRefreshing := true)) else None;
      EndResult(during, s.(isRefreshing := false, pullDistance := 0.0, start := None, canPull := false))
  }

  /** `shouldShowIndicator`. */
  predicate ShouldShowIndicator(s: State)
  {
    s.pullDistance > 20.0 || s.isRefreshing
  }

  datatype Event = Start(y: real, scrollTop: real) | Move(y: real) | End

  function Step(s: State, o: Options, e: Event): State
  {
    match e
    case Start(y, scrollTop) => TouchStart(s, o, y, scrollTop)
    case Move(y) => TouchMove(s, o, y)
    case End => TouchEnd(s, o).state
  }

  function Run(s: State, o: Options, events: seq<Event>): State
    decreases |events|
  {
    if events == [] then s else Run(Step(s, o, events[0]), o, events[1..])
  }

  /** The state every sequence of touch events keeps, for a positive resistance and
      threshold: not refreshing between events, and the pull within (0, 1.5 * threshold]
      or exactly zero. */
  predicate Settled(s: State, o: Options)
  {
    !s.isRefreshing && 0.0 <= s.pullDistance <= 1.5 * o.threshold
  }

  lemma {:induction false} RunStaysSettled(s: State, o: Options, events: seq<Event>)
    requires o.resistance >= 0.0 && o.threshold >= 0.0
    requires Settled(s, o)
    ensures Settled(Run(s, o, events), o)
    decreases |events|
  {
    if events != [] {
      var s' := Step(s, o, events[0]);
      if events[0].Move? && s'.pullDistance != s.pullDistance {
        var d := events[0].y - s.start.value;
        if o.resistance > 0.0 {
          assert d / o.resistance > 0.0;
        }
      }
      assert Settled(s', o);
      RunStaysSettled(s', o, events[1..]);
    }
  }

  /** Between events the indicator is shown exactly when the pull exceeds 20 pixels. */
  lemma IndicatorFollowsPull(o: Options, events: seq<Event>)
    requires o.resistance >= 0.0 && o.threshold >= 0.0
    ensures ShouldShowIndicator(Run(Initial, o, events)) <==> Run(Initial, o, events).pullDistance > 20.0
  {
    RunStaysSettled(Initial, o, events);
  }

  /** With the defaults, a 250-pixel pull from the top is damped to 100 pixels, which is
      past the 80-pixel threshold, so releasing it refreshes. */
  lemma DefaultPullRefreshes()
    ensures var s := Run(Initial, Defaults, [Start(100.0, 0.0), Move(350.0)]);
            s.pullDistance == 100.0 && TouchEnd(s, Defaults).during.Some?
  {
    var s1 := TouchStart(Initial, Defaults, 100.0, 0.0);
    var s2 := TouchMove(s1, Defaults, 350.0);
    assert Run(Initial, Defaults, [Start(100.0, 0.0), Move(350.0)]) == Run(s1, Defaults, [Move(350.0)]);
    assert Run(s1, Defaults, [Move(350.0)]) == s2;
  }
}

=== FILE: pull_refresh_view.dfy ===
/** The pull-to-refresh container (`components/PullToRefresh.tsx`): its own touch handlers
    over `startY` and `pullDistance`, and the indicator's opacity and scale. A `startY` of
    zero means no touch is recorded. The container's scroll offset is `None` when the
    container is not mounted. Haptic feedback is not part of the model. */
module PullRefreshView {
  import opened Wrappers

  const PullThreshold: real := 80.0
  const MaxPull: real := 120.0

  datatype State = State(isRefreshing: bool, pullDistance: real, startY: real)

  datatype Env = Env(disabled: bool, isMobile: bool)

  const Initial := State(false, 0.0, 0.0)

  predicate Active(env: Env)
  {
    !env.disabled && env.isMobile
  }

  /** `handleTouchStart`: records the touch only when active and scrolled to the top. */
  function TouchStart(s: State, env: Env, scrollTop: Option<real>, y: real): (r: State)
    ensures r.startY != s.startY ==> Active(env) && scrollTop == Some(0.0) && r.startY == y
    ensures Active(env) && scrollTop == Some(0.0) ==> r.startY == y
    ensures r.pullDistance == s.pullDistance && r.isRefreshing == s.isRefreshing
  {
    if !Active(env) then s
    else if scrollTop == Some(0.0) then s.(startY := y)
    else s
  }

  /** `handleTouchMove`: ignored without a recorded start; a downward pull of at most
      `MaxPull` becomes the pull distance, anything else leaves it. */
  function TouchMove(s: State, env: Env, y: real): (r: State)
    ensures !Active(env) || s.startY == 0.0 ==> r == s
    ensures r.pullDistance != s.pullDistance ==> 0.0 < r.pullDistance <= MaxPull && r.pullDistance == y - s.startY
    ensures Active(env) && s.startY != 0.0 && 0.0 < y - s.startY <= MaxPull ==> r.pullDistance == y - s.startY
    ensures r.startY == s.startY && r.isRefreshing == s.isRefreshing
  {
    if !Active(env) || s.startY == 0.0 then s
    else
      var diff := y - s.startY;
      if diff > 0.0 && diff <= MaxPull then s.(pullDistance := diff) else s
  }

  datatype EndResult = EndResult(refreshed: bool, state: State)

  /** `handleTouchEnd`: nothing happens without a pull; otherwise a pull of at least the
      threshold refreshes, and both the pull and the recorded start are reset. */
  function TouchEnd(s: State, env: Env): (r: EndResult)
    ensures !Active(env) || s.pullDistance == 0.0 ==> r == EndResult(false, s)
    ensures Active(env) && s.pullDistance != 0.0 ==>
              && (r.refreshed <==> s.pullDistance >= PullThreshold)
              && r.state == State(false, 0.0, 0.0)
  {
    if !Active(env) || s.pullDistance == 0.0 then EndResult(false, s)
    else EndResult(s.pullDistance >= PullThreshold, s.(isRefreshing := false, pullDistance := 0.0, startY := 0.0))
  }

  /** `refreshOpacity`. */
  function RefreshOpacity(pullDistance: real): (r: real)
    requires pullDistance >= 0.0
    ensures 0.0 <= r <= 1.0
    ensures r == 1.0 <==> pullDistance >= PullThreshold
  {
    Min(pullDistance / PullThreshold, 1.0)
  }

  /** `refreshScale`. */
  function RefreshScale(pullDistance: real): (r: real)
    requires pullDistance >= 0.0
    ensures 0.5 <= r <= 1.0
  {
    Min(0.5 + (pullDistance / PullThreshold) * 0.5, 1.0)
  }

  /** The indicator grows as it fades in: its scale is always half way between one half and
      one, in proportion to its opacity. */
  lemma ScaleTracksOpacity(pullDistance: real)
    requires pullDistance >= 0.0
    ensures RefreshScale(pullDistance) == 0.5 + 0.5 * RefreshOpacity(pullDistance)
  {
  }

  datatype Event = Start(scrollTop: Option<real>, y: real) | Move(y: real) | End

  function Step(s: State, env: Env, e: Event): State
  {
    match e
    case Start(scrollTop, y) => TouchStart(s, env, scrollTop, y)
    case Move(y) => TouchMove(s, env, y)
    case End => TouchEnd(s, env).state
  }

  function Run(s: State, env: Env, events: seq<Event>): State
    decreases |events|
  {
    if events == [] then s else Run(Step(s, env, events[0]), env, events[1..])
  }

  predicate Bounded(s: State)
  {
    0.0 <= s.pullDistance <= MaxPull && !s.isRefreshing
  }

  /** Whatever the touches, the pull distance stays within [0, MaxPull], so the opacity and
      scale are always defined and in range. */
  lemma {:induction false} RunStaysBounded(s: State, env: Env, events: seq<Event>)
    requires Bounded(s)
    ensures Bounded(Run(s, env, events))
    decreases |events|
  {
    if events != [] {
      RunStaysBounded(Step(s, env, events[0]), env, events[1..]);
    }
  }
}

=== FILE: quick_stake_form.dfy ===
/** The add-stake dialog of `components/staking/AddStakeModal.tsx`; `SubmitToLedger` assumes
    a parent that passes the hook's `addStake` as `onAddStake`, since no page of the
    application renders the dialog. Unlike `components/AddStakeModal.tsx` it has no minimum and keeps its own loading flag. Its guard
    is `!amount || parseFloat(amount) <= 0`; because `NaN <= 0` is false, a non-empty text
    that does not parse passes the guard and is forwarded as `NaN`, which the model writes
    as a forwarded amount of `None`. */
module QuickStakeForm {
  import opened Wrappers
  import Utils
  import StakingLedger
  import AddStakeForm

  datatype Form = Form(amount: string, isLoading: bool)

  /** The arguments of one `onAddStake(selectedPosition.id, parseFloat(amount))` call. */
  datatype Forward = Forward(positionId: string, amount: Option<real>)

  /** `during` is the form while the call is awaited; `form` is the form afterwards. */
  datatype Submission = Submission(during: Option<Form>, form: Form, call: Option<Forward>)

  /** The early return of `handleSubmit`. */
  predicate Rejected(amount: string, parsed: Option<real>)
  {
    amount == "" || (parsed.Some? && parsed.value <= 0.0)
  }

  /** `handleSubmit`: a rejected amount changes nothing; otherwise the form is loading while
      the call runs, the loading flag always drops afterwards, and the amount is cleared
      only when the call succeeds. */
  function Submit(f: Form, position: StakingLedger.Position, parsed: Option<real>, callSucceeds: bool): (r: Submission)
    ensures Rejected(f.amount, parsed) ==> r.form == f && r.call.None? && r.during.None?
    ensures !Rejected(f.amount, parsed) ==>
              && r.call == Some(Forward(position.id, parsed))
              && r.during == Some(Form(f.amount, true))
              && !r.form.isLoading
    ensures r.form.amount == (if r.call.Some? && callSucceeds then "" else f.amount)
  {
    if Rejected(f.amount, parsed) then Submission(None, f, None)
    else
      var during := f.(isLoading := true);
      var after := if callSucceeds then during.(amount := "") else during;
      Submission(Some(during), after.(isLoading := false), Some(Forward(position.id, parsed)))
  }

  /** There is no minimum here: every positive typed amount is forwarded unchanged. */
  lemma AnyPositiveAmountForwarded(f: Form, position: StakingLedger.Position, v: real, callSucceeds: bool)
    requires f.amount != "" && v > 0.0
    ensures Submit(f, position, Some(v), callSucceeds).call == Some(Forward(position.id, Some(v)))
  {
  }

  /** The two dialogs disagree below the minimum: 5 is refused by the dialog of `components/AddStakeModal.tsx` and
      forwarded by this one. */
  lemma DialogsDisagreeBelowMinimum(position: StakingLedger.Position)
    ensures AddStakeForm.Submit(AddStakeForm.Form("5", "", true), position, Some(5.0), true).call.None?
    ensures Submit(Form("5", false), position, Some(5.0), true).call.Some?
  {
  }

  /** `estimatedRewards`: the reward formula applied to the typed amount (`None` for NaN). */
  function EstimatedRewards(parsed: Option<real>, position: StakingLedger.Position): (r: Option<real>)
    ensures r.Some? == parsed.Some?
    ensures parsed.Some? ==> r.value == Utils.CalculateRewards(parsed.value, position.apy, position.lockDays as real)
  {
    match parsed
    case None => None
    case Some(v) => Some(v * (position.apy / 100.0) * (position.lockDays as real / 365.0))
  }

  /** The submit button: disabled while loading, for an empty field, or for a non-positive
      amount (a NaN amount does not disable it). */
  predicate SubmitDisabled(f: Form, parsed: Option<real>)
  {
    f.isLoading || f.amount == "" || (parsed.Some? && parsed.value <= 0.0)
  }

  /** Outside loading, the button is enabled exactly when the guard lets the submission
      through, so every click on an enabled button reaches `onAddStake`. */
  lemma ButtonMatchesGuard(f: Form, position: StakingLedger.Position, parsed: Option<real>, callSucceeds: bool)
    requires !f.isLoading
    ensures !SubmitDisabled(f, parsed) <==> Submit(f, position, parsed, callSucceeds).call.Some?
  {
  }

  /** A typed amount that does not parse still reaches the callback, as NaN. */
  lemma UnparsedTextIsForwarded(position: StakingLedger.Position)
    ensures Submit(Form("abc", false), position, None, true).call == Some(Forward(position.id, None))
  {
  }

  /** The dialog wired to the ledger's `addStake`; a NaN amount is passed as well, and the
      model does not follow it into the ledger (it is reported as `None`). */
  function SubmitToLedger(ledger: seq<StakingLedger.Position>, f: Form, position: StakingLedger.Position, parsed: Option<real>)
    : (r: Option<(Form, seq<StakingLedger.Position>)>)
    ensures Rejected(f.amount, parsed) ==> r == Some((f, ledger))
    ensures !Rejected(f.amount, parsed) && parsed.Some? ==>
              r == Some((Form("", false), StakingLedger.AddStake(ledger, position.id, parsed.value)))
    ensures r.None? <==> !Rejected(f.amount, parsed) && parsed.None?
  {
    var s := Submit(f, position, parsed, true);
    match s.call
    case None => Some((s.form, ledger))
    case Some(c) =>
      match c.amount
      case None => None
      case Some(v) => Some((s.form, StakingLedger.AddStake(ledger, c.positionId, v)))
  }

  /** Every numeric amount this dialog lets through is positive, so the ledger stays well
      formed even without a minimum. */
  lemma GateKeepsLedgerWellFormed(ledger: seq<StakingLedger.Position>, f: Form, position: StakingLedger.Position, parsed: Option<real>)
    requires StakingLedger.WellFormed(ledger)
    requires SubmitToLedger(ledger, f, position, parsed).Some?
    ensures StakingLedger.WellFormed(SubmitToLedger(ledger, f, position, parsed).value.1)
  {
    if !Rejected(f.amount, parsed) {
      StakingLedger.AddKeepsWellFormed(ledger, position.id, parsed.value);
    }
  }
}

=== FILE: seqs.dfy ===
/** The two array methods the mock stores use: `Array.prototype.filter`, and a stable
    `Array.prototype.sort` whose comparator orders by a numeric key, largest first. */
module Seqs {

  /** `xs.filter(keep)`: the kept elements, in their original order. */
  function Filter<T(!new)>(xs: seq<T>, keep: T -> bool): (r: seq<T>)
    ensures forall i :: 0 <= i < |r| ==> r[i] in xs && keep(r[i])
    ensures forall i :: 0 <= i < |xs| && keep(xs[i]) ==> xs[i] in r
    ensures multiset(r) <= multiset(xs)
    ensures forall x :: multiset(r)[x] == if keep(x) then multiset(xs)[x] else 0
  {
    if xs == [] then []
    else
      assert xs == [xs[0]] + xs[1..];
      if keep(xs[0]) then [xs[0]] + Filter(xs[1..], keep)
      else Filter(xs[1..], keep)
  }

  /** Filtering keeps the original order: filtering a concatenation concatenates the
      filtered parts. */
  lemma {:induction false} FilterAppend<T(!new)>(a: seq<T>, b: seq<T>, keep: T -> bool)
    ensures Filter(a + b, keep) == Filter(a, keep) + Filter(b, keep)
  {
    if a == [] {
      assert a + b == b;
    } else {
      assert (a + b)[0] == a[0];
      assert (a + b)[1..] == a[1..] + b;
      FilterAppend(a[1..], b, keep);
    }
  }

  /** Filtering with a predicate that every element satisfies changes nothing. */
  lemma {:induction false} FilterAllKept<T(!new)>(xs: seq<T>, keep: T -> bool)
    requires forall i :: 0 <= i < |xs| ==> keep(xs[i])
    ensures Filter(xs, keep) == xs
  {
    if xs != [] {
      FilterAllKept(xs[1..], keep);
    }
  }

  ghost predicate SortedDesc<T>(xs: seq<T>, key: T -> int)
  {
    forall i, j :: 0 <= i < j < |xs| ==> key(xs[i]) >= key(xs[j])
  }

  /** Places `x` before the first element whose key does not exceed its own, which keeps
      elements with equal keys in their original order. */
  function InsertDesc<T>(x: T, t: seq<T>, key: T -> int): (r: seq<T>)
    requires SortedDesc(t, key)
    ensures SortedDesc(r, key)
    ensures multiset(r) == multiset(t) + multiset{x}
    ensures |r| == |t| + 1
    ensures r[0] == x || (t != [] && r[0] == t[0])
  {
    if t == [] || key(x) >= key(t[0]) then [x] + t
    else
      var rest := InsertDesc(x, t[1..], key);
      assert key(t[0]) >= key(rest[0]);
      var r := [t[0]] + rest;
      assert forall j :: 1 <= j < |r| ==> r[j] == rest[j - 1];
      assert forall j :: 1 <= j < |r| ==> key(rest[0]) >= key(r[j]);
      assert t == [t[0]] + t[1..];
      r
  }

  /** `xs.sort((a, b) => key(b) - key(a))`: a stable sort, largest key first. */
  function SortDesc<T>(xs: seq<T>, key: T -> int): (r: seq<T>)
    ensures SortedDesc(r, key)
    ensures multiset(r) == multiset(xs)
    ensures |r| == |xs|
  {
    if xs == [] then []
    else
      assert xs == [xs[0]] + xs[1..];
      InsertDesc(xs[0], SortDesc(xs[1..], key), key)
  }
}

=== FILE: staking_ledger.dfy ===
/** The staking position ledger of the `useStaking` hook: a sequence of positions and the
    three state updates `addStake`, `claimRewards` and `removeStake`. Each update is the
    `prev.map(...)` body of the hook, taken as one atomic transition; the simulated delay,
    the loading flag and logging are not part of the model. The hook validates nothing: an
    unknown id leaves the ledger as it was and any amount, even a negative one, is applied. */
module StakingLedger {
  import opened Wrappers
  import Utils

  datatype Position = Position(
    id: string,
    name: string,
    totalDeposited: real,
    apy: real,
    lockDays: int,
    pendingRewards: real,
    reward: real,
    earned: real)

  /** The fields no ledger operation ever touches. */
  predicate SameTerms(p: Position, q: Position)
  {
    p.id == q.id && p.name == q.name && p.apy == q.apy
    && p.lockDays == q.lockDays && p.reward == q.reward
  }

  /** Invariant of a well-formed position: nothing negative. */
  predicate Sound(p: Position)
  {
    p.totalDeposited >= 0.0 && p.apy >= 0.0 && p.lockDays >= 0
    && p.pendingRewards >= 0.0 && p.earned >= 0.0
  }

  predicate WellFormed(ps: seq<Position>)
  {
    forall i :: 0 <= i < |ps| ==> Sound(ps[i])
  }

  predicate UniqueIds(ps: seq<Position>)
  {
    forall i, j :: 0 <= i < j < |ps| ==> ps[i].id != ps[j].id
  }

  predicate HasId(ps: seq<Position>, id: string)
  {
    exists i :: 0 <= i < |ps| && ps[i].id == id
  }

  /** The rewards a position with principal `total` is projected to earn over its lock period. */
  function ProjectedFor(p: Position, total: real): (r: real)
    ensures r == Utils.CalculateRewards(total, p.apy, p.lockDays as real)
  {
    total * (p.apy / 100.0) * (p.lockDays as real / 365.0)
  }

  // ---------------------------------------------------------------------------
  // The per-position updates of the three `map` callbacks.

  /** The matching position of `addStake`: principal grows by `amount`, and the pending
      rewards are recomputed from scratch against the new principal. */
  function Deposit(p: Position, amount: real): (q: Position)
    ensures q.totalDeposited - p.totalDeposited == amount
    ensures q.pendingRewards == Utils.CalculateRewards(q.totalDeposited, q.apy, q.lockDays as real)
    ensures SameTerms(p, q) && q.earned == p.earned
  {
    var newTotal := p.totalDeposited + amount;
    p.(totalDeposited := newTotal, pendingRewards := ProjectedFor(p, newTotal))
  }

  /** The matching position of `claimRewards`: everything pending moves into `earned`. */
  function Claim(p: Position): (q: Position)
    ensures q.pendingRewards == 0.0
    ensures q.earned + q.pendingRewards == p.earned + p.pendingRewards
    ensures SameTerms(p, q) && q.totalDeposited == p.totalDeposited
  {
    p.(earned := p.earned + p.pendingRewards, pendingRewards := 0.0)
  }

  /** The matching position of `removeStake`: principal shrinks by `amount` but never below
      zero, and the pending rewards are recomputed against the new principal. */
  function Withdraw(p: Position, amount: real): (q: Position)
    ensures q.totalDeposited >= 0.0
    ensures amount <= p.totalDeposited ==> q.totalDeposited == p.totalDeposited - amount
    ensures amount >= p.totalDeposited ==> q.totalDeposited == 0.0
    ensures q.pendingRewards == Utils.CalculateRewards(q.totalDeposited, q.apy, q.lockDays as real)
    ensures SameTerms(p, q) && q.earned == p.earned
  {
    var newTotal := Max(0.0, p.totalDeposited - amount);
    p.(totalDeposited := newTotal, pendingRewards := ProjectedFor(p, newTotal))
  }

  // ---------------------------------------------------------------------------
  // The ledger: `prev.map(position => position.id === positionId ? update : position)`.

  datatype Action = Add(amount: real) | Collect | Remove(amount: real)

  function Update(p: Position, a: Action): (q: Position)
    ensures SameTerms(p, q)
  {
    match a
    case Add(amount) => Deposit(p, amount)
    case Collect => Claim(p)
    case Remove(amount) => Withdraw(p, amount)
  }

  /** Applies `a` to every position whose id is `positionId`, in place and in order. */
  function Apply(ps: seq<Position>, positionId: string, a: Action): (r: seq<Position>)
    ensures |r| == |ps|
    ensures forall i :: 0 <= i < |ps| ==> r[i] == (if ps[i].id == positionId then Update(ps[i], a) else ps[i])
    ensures !HasId(ps, positionId) ==> r == ps
  {
    if ps == [] then []
    else [if ps[0].id == positionId then Update(ps[0], a) else ps[0]] + Apply(ps[1..], positionId, a)
  }

  /** `addStake(positionId, amount)`. */
  function AddStake(ps: seq<Position>, positionId: string, amount: real): (r: seq<Position>)
    ensures |r| == |ps|
    ensures forall i :: 0 <= i < |ps| && ps[i].id != positionId ==> r[i] == ps[i]
    ensures forall i :: 0 <= i < |ps| && ps[i].id == positionId ==>
              && r[i].totalDeposited == ps[i].totalDeposited + amount
              && r[i].pendingRewards == Utils.CalculateRewards(r[i].totalDeposited, ps[i].apy, ps[i].lockDays as real)
              && r[i].earned == ps[i].earned
              && SameTerms(ps[i], r[i])
    ensures !HasId(ps, positionId) ==> r == ps
  {
    Apply(ps, positionId, Action.Add(amount))
  }

  /** `claimRewards(positionId)`. */
  function ClaimRewards(ps: seq<Position>, positionId: string): (r: seq<Position>)
    ensures |r| == |ps|
    ensures forall i :: 0 <= i < |ps| && ps[i].id != positionId ==> r[i] == ps[i]
    ensures forall i :: 0 <= i < |ps| && ps[i].id == positionId ==>
              && r[i].earned == ps[i].earned + ps[i].pendingRewards
              && r[i].pendingRewards == 0.0
              && r[i].totalDeposited == ps[i].totalDeposited
              && SameTerms(ps[i], r[i])
    ensures !HasId(ps, positionId) ==> r == ps
  {
    Apply(ps, positionId, Action.Collect)
  }

  /** `removeStake(positionId, amount)`. */
  function RemoveStake(ps: seq<Position>, positionId: string, amount: real): (r: seq<Position>)
    ensures |r| == |ps|
    ensures forall i :: 0 <= i < |ps| && ps[i].id != positionId ==> r[i] == ps[i]
    ensures forall i :: 0 <= i < |ps| && ps[i].id == positionId ==>
              && r[i].totalDeposited == Max(0.0, ps[i].totalDeposited - amount)
              && r[i].pendingRewards == Utils.CalculateRewards(r[i].totalDeposited, ps[i].apy, ps[i].lockDays as real)
              && r[i].earned == ps[i].earned
              && SameTerms(ps[i], r[i])
    ensures !HasId(ps, positionId) ==> r == ps
  {
    Apply(ps, positionId, Action.Remove(amount))
  }

  // ---------------------------------------------------------------------------
  // Properties of the ledger.

  /** Every operation keeps the ids, hence their uniqueness and order. */
  lemma ApplyKeepsIds(ps: seq<Position>, positionId: string, a: Action)
    ensures forall i :: 0 <= i < |ps| ==> Apply(ps, positionId, a)[i].id == ps[i].id
    ensures UniqueIds(ps) ==> UniqueIds(Apply(ps, positionId, a))
  {
  }

  /** A second claim on the same position changes nothing. */
  lemma ClaimIdempotent(ps: seq<Position>, positionId: string)
    ensures ClaimRewards(ClaimRewards(ps, positionId), positionId) == ClaimRewards(ps, positionId)
  {
    var once := ClaimRewards(ps, positionId);
    var twice := ClaimRewards(once, positionId);
    assert forall i :: 0 <= i < |ps| ==> twice[i] == once[i];
  }

  /** The ledger's total reward value: everything earned plus everything pending. */
  function RewardValue(ps: seq<Position>): real
  {
    if ps == [] then 0.0 else ps[0].earned + ps[0].pendingRewards + RewardValue(ps[1..])
  }

  /** Claiming moves rewards between `pendingRewards` and `earned` and never creates or
      destroys any. */
  lemma {:induction false} ClaimConservesRewardValue(ps: seq<Position>, positionId: string)
    ensures RewardValue(ClaimRewards(ps, positionId)) == RewardValue(ps)
  {
    if ps != [] {
      var r := ClaimRewards(ps, positionId);
      ClaimConservesRewardValue(ps[1..], positionId);
      assert r[1..] == ClaimRewards(ps[1..], positionId);
    }
  }

  /** Claiming preserves well-formedness and never lowers any `earned`. */
  lemma ClaimKeepsWellFormed(ps: seq<Position>, positionId: string)
    requires WellFormed(ps)
    ensures WellFormed(ClaimRewards(ps, positionId))
    ensures forall i :: 0 <= i < |ps| ==> ClaimRewards(ps, positionId)[i].earned >= ps[i].earned
  {
  }

  /** Withdrawing any amount, however large, keeps every principal non-negative. */
  lemma RemoveKeepsWellFormed(ps: seq<Position>, positionId: string, amount: real)
    requires WellFormed(ps)
    ensures WellFormed(RemoveStake(ps, positionId, amount))
  {
    var r := RemoveStake(ps, positionId, amount);
    forall i | 0 <= i < |ps| && ps[i].id == positionId
      ensures Sound(r[i])
    {
      Utils.RewardsNonNegative(r[i].totalDeposited, r[i].apy, r[i].lockDays as real);
    }
  }

  /** A non-negative deposit keeps the ledger well formed. */
  lemma AddKeepsWellFormed(ps: seq<Position>, positionId: string, amount: real)
    requires WellFormed(ps) && amount >= 0.0
    ensures WellFormed(AddStake(ps, positionId, amount))
  {
    var r := AddStake(ps, positionId, amount);
    forall i | 0 <= i < |ps| && ps[i].id == positionId
      ensures Sound(r[i])
    {
      Utils.RewardsNonNegative(r[i].totalDeposited, r[i].apy, r[i].lockDays as real);
    }
  }

  /** The hook accepts negative amounts: a negative deposit can drive a principal below
      zero, which is why the forms in front of it reject non-positive amounts. */
  lemma NegativeDepositBreaksWellFormed()
    ensures WellFormed(Seed())
    ensures !WellFormed(AddStake(Seed(), "btc", -4000.0))
  {
    var r := AddStake(Seed(), "btc", -4000.0);
    assert r[1].totalDeposited == -500.0;
  }

  /** The hook also accepts a negative withdrawal, which adds to the principal. */
  lemma NegativeWithdrawalDeposits(ps: seq<Position>, positionId: string, amount: real)
    requires amount < 0.0 && WellFormed(ps)
    ensures forall i :: 0 <= i < |ps| && ps[i].id == positionId ==>
              RemoveStake(ps, positionId, amount)[i] == AddStake(ps, positionId, -amount)[i]
  {
  }

  /** Depositing and then withdrawing the same non-negative amount restores the ledger. */
  lemma DepositThenWithdraw(ps: seq<Position>, positionId: string, amount: real)
    requires WellFormed(ps) && amount >= 0.0
    requires forall i :: 0 <= i < |ps| ==> ps[i].pendingRewards == ProjectedFor(ps[i], ps[i].totalDeposited)
    ensures RemoveStake(AddStake(ps, positionId, amount), positionId, amount) == ps
  {
    var r := RemoveStake(AddStake(ps, positionId, amount), positionId, amount);
    forall i | 0 <= i < |ps|
      ensures r[i] == ps[i]
    {
      if ps[i].id == positionId {
        assert Max(0.0, ps[i].totalDeposited + amount - amount) == ps[i].totalDeposited;
      }
    }
  }

  /** Under unique ids, exactly the named position changes: looking it up after the update
      finds the updated record. */
  function Find(ps: seq<Position>, id: string): (r: Option<nat>)
    ensures r.Some? ==> r.value < |ps| && ps[r.value].id == id
    ensures r.None? <==> !HasId(ps, id)
  {
    if ps == [] then None
    else if ps[0].id == id then Some(0)
    else match Find(ps[1..], id)
      case None => None
      case Some(k) => Some(k + 1)
  }

  lemma FindAfterAddStake(ps: seq<Position>, positionId: string, amount: real)
    requires UniqueIds(ps) && HasId(ps, positionId)
    ensures var k := Find(ps, positionId).value;
            Find(AddStake(ps, positionId, amount), positionId) == Some(k)
            && AddStake(ps, positionId, amount)[k] == Deposit(ps[k], amount)
  {
    var k := Find(ps, positionId).value;
    var r := AddStake(ps, positionId, amount);
    ApplyKeepsIds(ps, positionId, Action.Add(amount));
    var k' := Find(r, positionId).value;
    assert k' == k;
  }

  // ---------------------------------------------------------------------------
  // The seed data the hook starts from.

  function Seed(): (r: seq<Position>)
    ensures |r| == 3
    ensures forall i :: 0 <= i < |r| ==> Sound(r[i]) && r[i].lockDays > 0
  {
    [ Position("altcoin", "Altcoin Staking", 5089.65, 12.5, 3, 5697.52, 4162.0, 1892.01),
      Position("btc", "BTC Staking", 3500.00, 15.6, 7, 4200.00, 4162.0, 1892.01),
      Position("meme", "Meme Staking", 2800.00, 15.6, 14, 3360.00, 4162.0, 1892.01) ]
  }

  lemma SeedShape()
    ensures |Seed()| == 3 && UniqueIds(Seed()) && WellFormed(Seed())
    ensures Seed()[0].id == "altcoin" && Seed()[1].id == "btc" && Seed()[2].id == "meme"
  {
  }

  /** Depositing 500 into the seeded BTC position (principal 3500, 15.6% APY, 7 days)
      gives a principal of 4000 and pending rewards of 4000 * 0.156 * 7/365. */
  lemma BtcDepositExample()
    ensures AddStake(Seed(), "btc", 500.0)[1].totalDeposited == 4000.0
    ensures AddStake(Seed(), "btc", 500.0)[1].pendingRewards == 4000.0 * 0.156 * 7.0 / 365.0
    ensures AddStake(Seed(), "btc", 500.0)[0] == Seed()[0]
    ensures AddStake(Seed(), "btc", 500.0)[2] == Seed()[2]
  {
  }

  /** Claiming the seeded BTC position moves its 4200 pending into `earned`. */
  lemma BtcClaimExample()
    ensures ClaimRewards(Seed(), "btc")[1].earned == 6092.01
    ensures ClaimRewards(Seed(), "btc")[1].pendingRewards == 0.0
  {
  }
}

=== FILE: swipe.dfy ===
/** Swipe recognition (`useSwipeGestures`): a touch start is recorded, and at touch end the
    displacement and duration decide which single callback, if any, fires. Coordinates and
    times are reals (pixels and milliseconds). */
module Swipe {
  import opened Wrappers

  datatype Direction = Left | Right | Up | Down

  datatype Options = Options(minDistance: real, maxTime: real, threshold: real)

  const Defaults := Options(50.0, 300.0, 10.0)

  datatype TouchStart = TouchStart(x: real, y: real, time: real)

  /** The decision at touch end: rejected early (too slow or too short, the start stays
      recorded), or settled with at most one direction (the start is cleared). */
  datatype Outcome = Ignored | Settled(fired: Option<Direction>)

  /** The decision of `handleTouchEnd` for a displacement `(dx, dy)` made in `dt`. */
  function Classify(dx: real, dy: real, dt: real, o: Options): (r: Outcome)
    ensures dt > o.maxTime ==> r == Ignored
    ensures Max(Abs(dx), Abs(dy)) < o.minDistance ==> r == Ignored
    ensures r == Ignored <==> dt > o.maxTime || Max(Abs(dx), Abs(dy)) < o.minDistance
    ensures r.Settled? && r.fired.Some? && (r.fired.value == Left || r.fired.value == Right) ==>
              Abs(dx) > Abs(dy) && Abs(dy) < o.threshold && (r.fired.value == Right <==> dx > 0.0)
    ensures r.Settled? && r.fired.Some? && (r.fired.value == Up || r.fired.value == Down) ==>
              Abs(dx) <= Abs(dy) && Abs(dx) < o.threshold && (r.fired.value == Down <==> dy > 0.0)
    ensures r.Settled? && Abs(dx) > Abs(dy) && Abs(dy) < o.threshold ==> r.fired.Some?
    ensures r.Settled? && Abs(dx) <= Abs(dy) && Abs(dx) < o.threshold ==> r.fired.Some?
  {
    if dt > o.maxTime then Ignored
    else if Max(Abs(dx), Abs(dy)) < o.minDistance then Ignored
    else if Abs(dx) > Abs(dy) then
      Settled(if Abs(dy) < o.threshold then Some(if dx > 0.0 then Right else Left) else None)
    else
      Settled(if Abs(dx) < o.threshold then Some(if dy > 0.0 then Down else Up) else None)
  }

  datatype EndResult = EndResult(start: Option<TouchStart>, fired: Option<Direction>)

  /** `handleTouchEnd` at position `(x, y)` and time `now`. */
  function TouchEnd(start: Option<TouchStart>, x: real, y: real, now: real, o: Options): (r: EndResult)
    ensures start.None? ==> r == EndResult(None, None)
    ensures start.Some? ==> (r.start.Some? <==> Classify(x - start.value.x, y - start.value.y, now - start.value.time, o) == Ignored)
    ensures r.start.Some? ==> r.start == start && r.fired.None?
    ensures start.Some? && Classify(x - start.value.x, y - start.value.y, now - start.value.time, o).Settled? ==>
              r.fired == Classify(x - start.value.x, y - start.value.y, now - start.value.time, o).fired
  {
    match start
    case None => EndResult(None, None)
    case Some(s) =>
      match Classify(x - s.x, y - s.y, now - s.time, o)
      case Ignored => EndResult(start, None)
      case Settled(fired) => EndResult(None, fired)
  }

  function MirrorX(d: Direction): Direction
  {
    match d
    case Left => Right
    case Right => Left
    case _ => d
  }

  /** Mirroring a gesture left-to-right swaps the horizontal callbacks and changes nothing
      else. */
  lemma MirrorSwapsLeftAndRight(dx: real, dy: real, dt: real, o: Options)
    ensures Classify(-dx, dy, dt, o) == match Classify(dx, dy, dt, o)
                                        case Ignored => Ignored
                                        case Settled(None) => Settled(None)
                                        case Settled(Some(d)) => Settled(Some(MirrorX(d)))
  {
  }

  /** An exact diagonal counts as vertical; with the minimum distance at least the axis
      tolerance (as with the defaults) it never fires. */
  lemma DiagonalNeverFires(dx: real, dy: real, dt: real, o: Options)
    requires Abs(dx) == Abs(dy) && o.minDistance >= o.threshold
    ensures Classify(dx, dy, dt, o).Ignored? || Classify(dx, dy, dt, o).fired.None?
  {
  }

  /** With the defaults, a quick 100-pixel swipe to the right with 5 pixels of drift fires
      the right callback; the same swipe taking 400 ms fires nothing and keeps the start. */
  lemma DefaultExamples()
    ensures Classify(100.0, 5.0, 200.0, Defaults) == Settled(Some(Right))
    ensures Classify(100.0, 5.0, 400.0, Defaults) == Ignored
    ensures Classify(30.0, 0.0, 100.0, Defaults) == Ignored
    ensures Classify(60.0, 20.0, 100.0, Defaults) == Settled(None)
  {
  }
}

=== FILE: theme.dfy ===
/** The colour theme (`lib/theme-context.tsx`): a three-way cycle, persisted by name and
    adopted from storage at mount only when the stored name is valid. */
module ThemeCycle {
  import opened Wrappers

  datatype Theme = Light | Dark | Default

  /** `toggleTheme`: default, then dark, then light, then default again. */
  function Toggle(t: Theme): (r: Theme)
    ensures r != t
    ensures t == Default ==> r == Dark
    ensures t == Dark ==> r == Light
    ensures t == Light ==> r == Default
  {
    if t == Default then Dark else if t == Dark then Light else Default
  }

  /** Three toggles bring back the starting theme, and no fewer do. */
  lemma ToggleCycle(t: Theme)
    ensures Toggle(Toggle(Toggle(t))) == t
    ensures Toggle(Toggle(t)) != t
  {
  }

  /** The name written to storage. */
  function Name(t: Theme): (s: string)
    ensures s in {"light", "dark", "default"}
  {
    match t
    case Light => "light"
    case Dark => "dark"
    case Default => "default"
  }

  /** The check applied to a stored name. */
  function Parse(s: string): (r: Option<Theme>)
    ensures r.Some? <==> s in {"light", "dark", "default"}
  {
    match s
    case "light" => Some(Light)
    case "dark" => Some(Dark)
    case "default" => Some(Default)
    case _ => None
  }

  /** Names and themes are in one-to-one correspondence. */
  lemma NameParseRoundTrip(t: Theme, s: string)
    ensures Parse(Name(t)) == Some(t)
    ensures Parse(s) == Some(t) ==> Name(t) == s
  {
  }

  /** The theme after mount: `default`, unless storage holds a valid theme name. */
  function Mount(saved: Option<string>): (r: Theme)
    ensures saved.Some? && Parse(saved.value).Some? ==> r == Parse(saved.value).value
    ensures saved.None? || saved.value !in {"light", "dark", "default"} ==> r == Default
  {
    match saved
    case None => Default
    case Some(s) => if s != "" && Parse(s).Some? then Parse(s).value else Default
  }

  /** A theme saved by one session is the theme the next session mounts with. */
  lemma PersistedThemeSurvivesReload(t: Theme)
    ensures Mount(Some(Name(t))) == t
  {
  }
}

=== FILE: transaction_history.dfy ===
/** The transaction history panel (`components/TransactionHistory.tsx`): which transactions
    are listed, whether the show-all toggle appears, and how addresses are abbreviated. */
module TransactionHistory {
  import opened Wrappers
  import JsString
  import CryptoWallet

  const PageSize := 5

  /** `displayedTransactions`: everything when expanded, otherwise `slice(0, 5)`. */
  function Displayed(txs: seq<CryptoWallet.Transaction>, showAll: bool): (r: seq<CryptoWallet.Transaction>)
    ensures r <= txs
    ensures showAll ==> r == txs
    ensures !showAll ==> |r| == if |txs| < PageSize then |txs| else PageSize
  {
    if showAll || |txs| <= PageSize then txs else txs[..PageSize]
  }

  datatype View = EmptyState | Listing(rows: seq<CryptoWallet.Transaction>, toggle: Option<string>)

  /** The toggle's label. */
  function ToggleLabel(showAll: bool, count: nat): (r: string)
    ensures showAll ==> r == "Show Less"
    ensures !showAll ==> |r| > 11 && r[..10] == "Show All (" && r[|r| - 1] == ')'
    ensures !showAll ==> JsString.IsDigits(r[10..|r| - 1]) && JsString.DigitsValue(r[10..|r| - 1]) == count
  {
    if showAll then "Show Less"
    else
      JsString.DecimalRoundTrip(count);
      var r := "Show All (" + JsString.Decimal(count) + ")";
      assert r[10..|r| - 1] == JsString.Decimal(count);
      r
  }

  /** The rendered panel. */
  function Render(txs: seq<CryptoWallet.Transaction>, showAll: bool): (r: View)
    ensures r == EmptyState <==> txs == []
    ensures r.Listing? ==> r.rows == Displayed(txs, showAll)
    ensures r.Listing? ==> (r.toggle.Some? <==> |txs| > PageSize)
  {
    if |txs| == 0 then EmptyState
    else Listing(Displayed(txs, showAll), if |txs| > PageSize then Some(ToggleLabel(showAll, |txs|)) else None)
  }

  /** Without a toggle nothing is hidden: a short list is shown in full either way. */
  lemma ShortListShownInFull(txs: seq<CryptoWallet.Transaction>, showAll: bool)
    requires 0 < |txs| <= PageSize
    ensures Render(txs, showAll) == Listing(txs, None)
  {
  }

  /** With a toggle, collapsing hides exactly the transactions after the fifth. */
  lemma CollapsedHidesTail(txs: seq<CryptoWallet.Transaction>)
    requires |txs| > PageSize
    ensures Render(txs, false).rows + txs[PageSize..] == Render(txs, true).rows
  {
  }

  /** `formatAddress`: the first six and the last four characters around `...`. */
  function FormatAddress(address: string): (r: string)
    ensures |address| >= 10 ==> r == address[..6] + "..." + address[|address| - 4..] && |r| == 13
    ensures address == "" ==> r == "..."
  {
    JsString.Slice(address, 0, 6) + "..." + JsString.SliceFrom(address, -4)
  }
}

=== FILE: utils.dfy ===
/** The pure helpers of the application's utility library: the reward formula every
    staking screen uses, and the display shortening of wallet addresses. */
module Utils {
  import JsString

  /** Simple (non-compounding) interest: `principal` earning `apy` percent a year,
      pro rata over `days` of a 365-day year. */
  function CalculateRewards(principal: real, apy: real, days: real): (r: real)
    ensures principal == 0.0 || apy == 0.0 || days == 0.0 ==> r == 0.0
  {
    principal * (apy / 100.0) * (days / 365.0)
  }

  /** Non-negative inputs never produce a negative reward. */
  lemma RewardsNonNegative(principal: real, apy: real, days: real)
    requires principal >= 0.0 && apy >= 0.0 && days >= 0.0
    ensures CalculateRewards(principal, apy, days) >= 0.0
  {
    var rate := (apy / 100.0) * (days / 365.0);
    assert rate >= 0.0;
    assert CalculateRewards(principal, apy, days) == principal * rate;
  }

  /** Splitting a principal in two splits its reward in two. */
  lemma RewardsAdditive(a: real, b: real, apy: real, days: real)
    ensures CalculateRewards(a + b, apy, days)
         == CalculateRewards(a, apy, days) + CalculateRewards(b, apy, days)
  {
  }

  /** For a non-negative rate and period, a larger principal earns at least as much. */
  lemma RewardsMonotone(a: real, b: real, apy: real, days: real)
    requires a <= b && apy >= 0.0 && days >= 0.0
    ensures CalculateRewards(a, apy, days) <= CalculateRewards(b, apy, days)
  {
    RewardsAdditive(a, b - a, apy, days);
    RewardsNonNegative(b - a, apy, days);
  }

  /** `shortenAddress(address, chars)`: the first and last `chars` characters joined by
      `...`; the empty address stays empty. */
  function ShortenAddress(address: string, chars: int): (r: string)
    ensures address == "" ==> r == ""
    ensures chars > 0 && |address| >= 2 * chars ==>
              r == address[..chars] + "..." + address[|address| - chars..] && |r| == 2 * chars + 3
    ensures chars == 0 && address != "" ==> r == "..." + address
  {
    if address == "" then ""
    else JsString.Slice(address, 0, chars) + "..." + JsString.SliceFrom(address, -chars)
  }

  /** The default of four characters each side: an address of at least eight characters
      keeps its first and last four, eleven characters in all. */
  lemma ShortenAddressDefault(address: string)
    requires |address| >= 8
    ensures ShortenAddress(address, 4) == address[..4] + "..." + address[|address| - 4..]
    ensures |ShortenAddress(address, 4)| == 11
  {
  }
}

=== FILE: wrappers.dfy ===
/** Optional values and success/failure results shared by every module of the model.
    `None` also stands for JavaScript's `null`/`undefined` and, where a number is
    expected, for `NaN`; `Failure` stands for a thrown `Error` and carries its message. */
module Wrappers {

  datatype Option<+T> = None | Some(value: T)

  datatype Result<+R, +E> = Success(value: R) | Failure(error: E)

  function Max(a: real, b: real): real
  {
    if a >= b then a else b
  }

  function Min(a: real, b: real): real
  {
    if a <= b then a else b
  }

  function Abs(x: real): real
  {
    if x < 0.0 then -x else x
  }
}
